=== FILE: README.md ===
# FastCGI gateway handler, modelled in Dafny

This project models the FastCGI pass-through handler of the `gserver` web
server (`fastcgi.go`). The handler does the following:

- It normalises a configured URL prefix when the handler is built.
- For each request, it refuses with 400 "invalid url" any path whose cleaned
  join with the document root does not start with the cleaned document root.
- It dials the FastCGI server and answers 502 if that fails.
- It deletes the first occurrence of the URL prefix from the path.
- It splits the path with the pattern `^(.*?\.php)(.*)$` into a script name
  and path info. Without a match it falls back either to `index.php` for a
  directory URL or to the static file server.
- For a script request, it fills in five FastCGI parameters and relays the
  server's response. It answers 502 if the round trip fails.

The handler becomes one pure function, `Gateway.Route`. It takes the
configuration, the request and the success of the two outside calls, and
returns what the handler does with the response writer: a `Reply` with a
status, a `ServeFile`, or a `Relay` with the FastCGI parameters it sent.

The Go library calls it relies on are modelled from their documented
behaviour:

- `strings.TrimRight`, `HasPrefix`, `HasSuffix`, `Index` and `Replace(…, 1)`
  are in `gostrings.dfy`.
- `path/filepath.Clean` and `Join` on a Unix host are in `filepath.dfy`.
  `Clean` is an element stack, and `Join` drops leading empty elements and
  returns `""` when every element is empty.
- The regular expression becomes an explicit shortest-prefix scan in
  `pathinfo.dfy`.

`containment.dfy` proves what the containment check guarantees and what it
does not.

Modules, in dependency order:

| file | module | contents |
|---|---|---|
| wrappers.dfy | `Wrappers` | `Option` |
| gostrings.dfy | `GoStrings` | the `strings` helpers |
| filepath.dfy | `FilePath` | `Split`, `JoinSlash`, `Clean`, `Join` and their laws |
| pathinfo.dfy | `PathInfo` | the `.php` split and its leftmost-shortest characterisation |
| gateway.dfy | `Gateway` | configuration, `StripPrefix`, `Classify`, `BuildParams`, `Route` and end-to-end lemmas |
| containment.dfy | `Containment` | what the check admits, four escapes, and the corrected check |

Behaviour of the code worth knowing:

- **A bare `.php` element matches.** The regular expression matches
  `/app/.php/extra`, giving script name `/app/.php` and path info `/extra`.
  (`PathInfo.BareExtensionIsScript`).
- **The shortest prefix wins.** The lazy `.*?` takes the shortest prefix
  ending in `.php`, not the longest: `/a.php/b.php` names the script `/a.php`
  (`PathInfo.FirstExtensionWins`).
- **The directory-index file uses the stripped path.** The file name is
  built from the prefix-stripped path, while `SCRIPT_NAME` is built from the
  unstripped one. So `/php/` under prefix `/php` names the script
  `/php/index.php` and reads `<root>/index.php`, whereas `/php/index.php`
  names it `/index.php` (`Gateway.DirectoryIndexKeepsPrefix`,
  `Gateway.ExplicitIndexDropsPrefix`).
- **The check does not confine the script file.** It cleans the whole
  unstripped path, but the script file is cleaned from a prefix of the path,
  and every file name is built from the path with the URL prefix deleted,
  which the check never sees. The test is also on characters, not path
  elements. Each of these three gaps lets a request through whose script
  file lies outside the document root (`Containment.TraversalEscapesRoot`,
  `Containment.StripEscapesRoot`, `Containment.SiblingPassesCheck`). See
  "Findings".
- **A relative root like `.` refuses names and admits climbing.** Under the
  document root `.`, a path such as `/x` cleans to `x`. That does not start
  with `.`, so the request is refused (`Containment.DotRootRefusesNames`).
  A path that climbs out, such as `/../s.php`, cleans to `../s.php`. That
  does start with the character `.`, so it passes, and it is relayed with
  the script file `../s.php`, outside the root
  (`Containment.DotRootAdmitsClimbing`). This is a fourth gap; see
  "Findings".

## Model

| member | source | states |
|---|---|---|
| GoStrings.HasPrefix | fastcgi.go:42 | `strings.HasPrefix`: a test on characters, not on path elements. `GoStrings.PrefixIffConcat` states what it means. |
| GoStrings.PrefixIffConcat | fastcgi.go:42 | The prefix test holds exactly when the string is the prefix followed by some string. |
| GoStrings.HasSuffix | fastcgi.go:69 | `strings.HasSuffix`. `GoStrings.SuffixIffConcat` states what it means. |
| GoStrings.SuffixIffConcat | fastcgi.go:69 | The suffix test holds exactly when the string is some string followed by the suffix. |
| GoStrings.TrimRight | fastcgi.go:26 | The stored prefix is the longest prefix of the given one that does not end in `/`; everything cut off is `/`. |
| GoStrings.Index | fastcgi.go:63 | The leftmost occurrence of the searched string, if any; `None` exactly when it does not occur. |
| GoStrings.ReplaceOnce | fastcgi.go:63 | Without an occurrence the string is unchanged; otherwise the leftmost occurrence is replaced and everything around it is kept. |
| GoStrings.DeleteOnceChangesIffContains | fastcgi.go:63 | Deleting a non-empty string changes the path exactly when the path contains it, and then shortens it by its length. |
| GoStrings.DeleteOnceOfPrefix | fastcgi.go:63 | When the prefix starts the path, deleting its first occurrence cuts it off the front. |
| Gateway.NewFastCGI | fastcgi.go:25-28 | Transport and document root are kept as given; the stored prefix is the given one less its trailing slashes and never ends in `/`. |
| Gateway.SlashOnlyPrefixIsEmpty | fastcgi.go:26 | A prefix made only of slashes, `/` included, is stored empty, which switches stripping off. |
| Gateway.NewFastCGIIdempotent | fastcgi.go:26 | Normalising a stored prefix again changes nothing. |
| FilePath.JoinSplit | fastcgi.go:40 | Joining the `/`-separated elements of a path gives the path back. |
| FilePath.SplitJoin | fastcgi.go:40 | Splitting the join of separator-free elements gives the elements back. |
| FilePath.SplitAppend | fastcgi.go:40 | The elements of two paths glued with `/` are the elements of each, in order. |
| FilePath.WalkKeepsCanonical | fastcgi.go:40-41 | Cleaning keeps the stack canonical: proper names only, no `..` under a root, `..` only before names. |
| FilePath.Clean | fastcgi.go:40-41 | Never empty, rooted exactly when the input is, ending in `/` only when it is `/`. |
| FilePath.CleanIdempotent | fastcgi.go:40-41 | Cleaning a cleaned path changes nothing. |
| FilePath.CleanCollapsesSeparators | fastcgi.go:40 | A doubled `/` cleans like a single one. |
| FilePath.CleanKeepsSuffix | fastcgi.go:83 | Cleaning keeps any separator-free suffix of the path other than empty, `.` and `..` (such as `.php`). |
| FilePath.Join | fastcgi.go:40 | Empty exactly when every element is empty; otherwise already clean. |
| FilePath.JoinTwo | fastcgi.go:40 | Joining two paths with a non-empty first one is cleaning them glued with `/`. |
| FilePath.JoinThree | fastcgi.go:73 | Joining three paths with a non-empty first one is cleaning them glued with `/`. |
| FilePath.JoinSkipsSlash | fastcgi.go:73 | A middle element `/` adds nothing to a join. |
| FilePath.JoinIgnoresLeadingSlash | fastcgi.go:83 | A leading `/` on the element after the document root does not change the join. |
| FilePath.JoinKeepsSuffix | fastcgi.go:83 | A join ends with a name suffix that its last element ends with. |
| FilePath.WalkWithoutDotDotExtends | fastcgi.go:40 | Elements that are not `..` only push onto the cleaned stack. |
| FilePath.RenderExtends | fastcgi.go:40-42 | A rooted path rendered from a longer stack starts, as a string, with the one rendered from a shorter stack below it. |
| PathInfo.SplitPathInfo | fastcgi.go:30 | Matches exactly when the path contains `.php` and no newline; the groups concatenate to the path, group 1 ends in `.php`, and no shorter prefix does. |
| PathInfo.SplitIsShortestParse | fastcgi.go:30 | Both directions: the split returned is the parse with the shortest group 1 among all parses of the expression. |
| PathInfo.ContainsIffSomePrefixEnds | fastcgi.go:30 | `.php` occurs in a path exactly when some prefix of it ends in `.php`. |
| PathInfo.SplitAfterFirstExtension | fastcgi.go:30 | The split of `a + ".php" + b` is `a + ".php"` and `b`, for any `b` without a newline, with `a` holding neither `h` nor a newline. |
| PathInfo.BareExtensionIsScript | fastcgi.go:30 | `/app/.php/extra` splits into `/app/.php` and `/extra`. |
| PathInfo.FirstExtensionWins | fastcgi.go:30 | `/a.php/b.php` splits at the first `.php`. |
| Gateway.Admitted | fastcgi.go:40-42 | The containment check: the cleaned join of document root and unstripped URL path starts, character by character, with the cleaned document root. `Gateway.RejectsExactlyWhenCheckFails` states its effect on the handler. |
| Gateway.StripPrefix | fastcgi.go:61-64 | An empty or absent prefix leaves the path alone; a leading prefix is cut off; otherwise the leftmost occurrence, wherever it is, is deleted. |
| Gateway.Classify | fastcgi.go:66-84 | With a `.php` split: a script whose name and path info concatenate to the stripped path and whose file is the join of root and name. Otherwise a URL ending in `/` gives `index.php` and empty path info, and anything else is the static file at the join of the document root and the stripped path. |
| Gateway.Scheme | fastcgi.go:95-98 | `REQUEST_SCHEME` is `https` exactly for a TLS request and `http` exactly for any other. |
| Gateway.BuildParams | fastcgi.go:86-100 | Exactly the five keys are added; they hold the script's names, path info, file and scheme (`https` exactly under TLS); every other parameter keeps its value. |
| Gateway.Route | fastcgi.go:38-107 | A relay went through a passed check, a dial and a round trip; a static serve through a passed check and a dial; every direct reply is 400 or 502. |
| Gateway.RejectsExactlyWhenCheckFails | fastcgi.go:40-46 | The reply is 400 "invalid url" exactly when the cleaned join does not start with the cleaned root, whatever the outside calls do. |
| Gateway.CheckedPathIsJoin | fastcgi.go:40 | The outer `Clean` of the check is a no-op, except that it turns the empty join into `.`. |
| Gateway.DialFailureIsBadGateway | fastcgi.go:50-55 | After a passed check, a failed dial answers 502 for every path. |
| Gateway.StaticRequestIsServedFromDocRoot | fastcgi.go:74-78 | Without a split or a trailing `/`, the file served is the join of root and stripped path, whatever the round trip would do. |
| Gateway.ScriptRequestNeedsRoundTrip | fastcgi.go:102-107 | A script request answers 502 exactly when the round trip fails, and otherwise relays the built parameters. |
| Gateway.ScriptParamsOfMatch | fastcgi.go:80-100 | End to end for a split path: script name and path info concatenate to the stripped path, the name is the shortest `.php` prefix, the file is the join of the document root and the script name, the scheme follows TLS, and client parameters survive. |
| Gateway.ScriptParamsOfDirectoryIndex | fastcgi.go:69-73 | End to end for a directory URL: `SCRIPT_NAME` appends `index.php` to the unstripped path, `SCRIPT_FILENAME` to root and stripped path, and `PATH_INFO` is empty. |
| Gateway.DirectoryIndexKeepsPrefix | fastcgi.go:69-73 | Under a prefix `p`, `p/` is relayed with the script named by the join of `p/` and `index.php`, and the file is the join of the document root and `index.php`. |
| Gateway.ExplicitIndexDropsPrefix | fastcgi.go:61-84 | Under a prefix `p`, `p/index.php` is relayed with the script named `/index.php` and the same file `<root>/index.php`. |
| Gateway.ScriptTargetsArePhp | fastcgi.go:66-84 | Every script request names a script ending in `.php`, as URL path and as file name. |
| Containment.AdmitsPathsThatNeverClimb | fastcgi.go:39-42 | Under an absolute document root, a path with no `..` element is always admitted. |
| Containment.DotRootRefusesNames | fastcgi.go:40-46 | Under the document root `.`, a request for `/n`, where `n` is a name not starting with `.`, is refused with 400. |
| Containment.TraversalEscapesRoot | fastcgi.go:39-46 | `/../s.php/../d` under root `/d` passes the check and is relayed with script file `/s.php`, which is not under `/d/`. |
| Containment.StripEscapesRoot | fastcgi.go:39-83 | Under root `/d` and URL prefix `/q`, `/q/../s.php` passes the check (it cleans to `/d/s.php`), but with the prefix deleted the script name is `/../s.php` and the relayed script file is `/s.php`, which is not under `/d/`. |
| Containment.DotRootAdmitsClimbing | fastcgi.go:40-83 | Under the document root `.`, `/../s.php` passes the check (it cleans to `../s.php`, which starts with `.`) and is relayed with script file `../s.php`, which is not within `.`. |
| Containment.SiblingPassesCheck | fastcgi.go:42 | `/../dX/s.php` under root `/d` passes the check and is relayed with script file `/dX/s.php`, which is not under `/d/`. |
| Containment.ConfinedRouteStaysInside | fastcgi.go:39 | With the check applied to the resolved file, every relayed `SCRIPT_FILENAME` and every served file lies within the cleaned document root. |
| Containment.ConfinedRouteRefusesTraversal | fastcgi.go:39-46 | The corrected handler refuses the traversal that the original relays. |
| Containment.ConfinedRouteRefusesStrip | fastcgi.go:39-83 | The corrected handler refuses the prefix-stripping escape that the original relays. |
| Containment.ConfinedRouteRefusesDotRootClimb | fastcgi.go:39-83 | The corrected handler refuses the climb under the root `.` that the original relays. |
| Containment.ConfinedRouteAgreesOnPlainPaths | fastcgi.go:39-107 | The correction refuses only escapes: under a rooted document root, a request whose stripped path has no `..` element gets from the corrected handler exactly the outcome of the original, whatever the dial and round trip do. |
| FilePath.SplitOfPrefix | fastcgi.go:66-83 | Cutting a path short keeps every element before its last one, so the `.php` prefix taken as the script name climbs only where the path does. |

## Findings

| source | as written | input that shows it | evidently intended | confidence | as-written member | corrected member |
|---|---|---|---|---|---|---|
| fastcgi.go:39-42 | The check cleans the join of root and the whole URL path and tests it as a character prefix. The script file is then cleaned from only the `.php` prefix of the path. | Root `/www`, path `/../a.php/../www`: the path cleans to `/www` and passes; the script file is `/a.php`. | The file the server reads stays inside the document root, as the comment on line 39 says. | high, not executed | Containment.TraversalEscapesRoot | Containment.ConfinedRouteStaysInside |
| fastcgi.go:40-83 | The check at line 40 runs on the unstripped URL path. The script and static file names are built from the path with the URL prefix deleted (lines 63, 73, 76, 83), which is never checked. | Root `/www`, prefix `/php`, path `/php/../a.php`: the path cleans to `/www/a.php` and passes; the stripped path is `/../a.php`, so the script file is `/a.php`. | The file the server reads stays inside the document root, whatever the prefix. | high, not executed | Containment.StripEscapesRoot | Containment.ConfinedRouteStaysInside |
| fastcgi.go:40-42 | The character test compares the cleaned join with the cleaned root `.`, and every path that climbs out cleans to something starting with `..`. | Root `.`, path `/../a.php`: the join cleans to `../a.php`, which starts with `.` and passes; the script file is `../a.php`. | The file the server reads stays inside the document root, for relative roots too. | high, not executed | Containment.DotRootAdmitsClimbing | Containment.ConfinedRouteStaysInside |

`Containment.ConfinedRoute` is the corrected handler. Before the original
handler runs, it adds a different test: the file the request resolves to
must be the cleaned document root or lie below it, compared element by
element (`Containment.Within`), not as a character prefix. Otherwise it is
the original handler. `Containment.ConfinedRouteStaysInside` says what the
added test guarantees, and `Containment.ConfinedRouteAgreesOnPlainPaths`
says it costs ordinary requests nothing. The other lemmas are about the
handler as written.

## Left out

- Network and I/O. `net.Dial`, `client.Do` and `resp.WriteTo` are not
  modelled. The dial and the round trip become the booleans `dialOk` and
  `doOk`. Writing the response, and the error that writing logs, is not
  modelled beyond the `Relay` outcome. The connection's `Close` and
  `log.Println` have no observable effect on the outcome.
- The FastCGI client library. `gofast.NewClient` is not modelled, and
  `client.NewRequest` is reduced to the parameter map it produces. That map
  is the request's `defaults` and is otherwise unconstrained.
- `http.ServeFile` is reduced to the `ServeFile` outcome with the file name
  it is given. Its own path handling, redirects and error pages are not part
  of this model.
- `ServeHTTP` is not modelled separately. It only calls `FastCGIPass`.
- `NewFastCGI`'s error result is left out, because it is always `nil`.
- The URL path is taken as already decoded by `net/http`. Strings are
  sequences of characters, with no UTF-8 encoding; Go's regular expression
  and `strings` functions agree on such input.
- `filepath` is modelled for Unix hosts only. Windows volume names and
  `\` separators are not modelled.
- Concurrency between requests is not modelled. The handler shares no
  mutable state.
- `Containment.TraversalEscapesRoot`, `Containment.StripEscapesRoot` and
  `Containment.SiblingPassesCheck` are stated for document roots (and URL
  prefixes) one element below `/`. Names there have no `h` before their
  `.php`, which fixes where the split falls. Deeper roots behave the same
  way, but these lemmas do not cover them.

=== FILE: containment.dfy ===
/**
 What the handler's containment check does and does not guarantee. The check
 cleans the join of document root and URL path and asks whether the result
 starts, character by character, with the cleaned document root. Three gaps
 let a request through whose script file lies outside the document root: the
 script file is built from a prefix of the path, cleaned on its own; it is
 built from the path with the URL prefix deleted, which the check never sees;
 and a character prefix is not a path prefix. Under a relative root such as
 `.` the character test also admits every path that climbs out of it.
 */
module Containment {
  import opened Wrappers
  import opened GoStrings
  import opened FilePath
  import opened PathInfo
  import opened Gateway

  /** A name that `Clean` keeps as it is. */
  predicate IsName(e: string) {
    Proper(e) && e != ".."
  }

  /** A document root one element below `/` is already clean. */
  lemma {:induction false} CleanTopLevel(d: string)
    requires IsName(d)
    ensures Clean([Sep] + d) == [Sep] + d
  {
    Extend(true, [""], d);
    CleanByElements([""] + [d]);
  }

  /** No element of the path is `..`. */
  predicate ClimbsNowhere(path: string) {
    forall k :: 0 <= k < |Split(path)| ==> Split(path)[k] != ".."
  }

  /** What the check is for: under an absolute document root, a path that
      never climbs is always admitted, whatever else it holds. */
  lemma {:induction false} AdmitsPathsThatNeverClimb(f: FastCGI, path: string)
    requires IsRooted(f.docRoot)
    requires ClimbsNowhere(path)
    ensures Admitted(f, path)
  {
    var g := f.docRoot + [Sep] + path;
    JoinTwo(f.docRoot, path);
    assert IsRooted(g);
    SplitAppend(f.docRoot, path);
    var out := Walk(true, Split(f.docRoot), []);
    WalkAppend(true, Split(f.docRoot), Split(path), []);
    WalkWithoutDotDotExtends(true, Split(path), out);
    RenderExtends(out, Walk(true, Split(path), out));
  }

  /** Under the relative document root `.`, whose cleaned form is `.`, a
      request for a file directly below it cleans to the bare name, which
      does not start with `.`, and is refused (`DotRootAdmitsClimbing` shows
      that climbing paths, by contrast, pass). */
  lemma {:induction false} DotRootRefusesNames(f: FastCGI, r: Request, n: string, dialOk: bool, doOk: bool)
    requires f.docRoot == "." && r.path == [Sep] + n
    requires IsName(n) && n[0] != '.'
    ensures Route(f, r, dialOk, doOk) == Reply(StatusBadRequest, InvalidUrl)
  {
    DotRootJoin(n);
    assert !HasPrefix(n, ".") by {
      assert n[..1][0] == n[0];
    }
    RejectsExactlyWhenCheckFails(f, r, dialOk, doOk);
  }

  lemma {:induction false} DotRootJoin(n: string)
    requires IsName(n)
    ensures Join([".", [Sep] + n]) == n
    ensures Clean(".") == "."
  {
    var e1 := ["."];
    var e2 := e1 + [""];
    Extend(false, e1, "");
    var e3 := e2 + [n];
    Extend(false, e2, n);
    assert JoinSlash(e3) == "." + [Sep] + ([Sep] + n);
    CleanByElements(e3);
    assert Render(false, [n]) == n;
    JoinTwo(".", [Sep] + n);
    CleanByElements(e1);
  }

  /** Under the relative document root `.`, a path that climbs out of it
      cleans to a path starting with `..`, which starts with the character
      `.`: the check passes, and the script file is outside the root. */
  lemma {:induction false} DotRootAdmitsClimbing(f: FastCGI, r: Request, stem: string)
    requires f.docRoot == "." && f.urlPrefix == ""
    requires Sep !in stem && 'h' !in stem && '\n' !in stem
    requires r.path == "/../" + stem + Ext
    ensures Admitted(f, r.path)
    ensures Route(f, r, true, true) ==
      Relay(BuildParams(r.defaults, Script(r.path, "", "../" + stem + Ext), r.tls))
    ensures !Within("../" + stem + Ext, Clean(f.docRoot))
  {
    DotRootClimbClassified(f, r.path, stem);
    DotClimbAdmitted(f, r.path, stem);
    ScriptRequestNeedsRoundTrip(f, r, true);
    DotClimbOutside(stem);
  }

  lemma {:induction false} DotClimbAdmitted(f: FastCGI, path: string, stem: string)
    requires f.docRoot == "."
    requires Join([f.docRoot, path]) == "../" + stem + Ext
    ensures Admitted(f, path)
  {
    CleanDot();
    var file := "../" + stem + Ext;
    assert file[..1] == ".";
  }

  /** A file whose first element is `..` is not within `.`. */
  lemma {:induction false} DotClimbOutside(stem: string)
    ensures !Within("../" + stem + Ext, Clean("."))
  {
    CleanDot();
    var file := "../" + stem + Ext;
    assert file[1] == '.';
    assert file != ".";
    assert !HasPrefix(file, "." + [Sep]) by {
      assert ("." + [Sep])[1] == Sep;
    }
  }

  lemma {:induction false} CleanDot()
    ensures Clean(".") == "."
  {
    var e1 := ["."];
    assert JoinSlash(e1) == ".";
    CleanByElements(e1);
    assert Walk(false, e1, []) == [];
  }

  lemma {:induction false} DotRootClimbClassified(f: FastCGI, path: string, stem: string)
    requires f.docRoot == "." && f.urlPrefix == ""
    requires Sep !in stem && 'h' !in stem && '\n' !in stem
    requires path == "/../" + stem + Ext
    ensures Classify(f, path) == Script(path, "", "../" + stem + Ext)
    ensures Join([f.docRoot, path]) == "../" + stem + Ext
  {
    assert StripPrefix(f.urlPrefix, path) == path;
    assert 'h' !in "/../" + stem;
    assert '\n' !in "/../" + stem;
    SplitAfterFirstExtension("/../" + stem, "");
    assert "/../" + stem + Ext + "" == path;
    DotRootClimbJoin(stem + Ext);
    DotShapes(stem);
  }

  /** The join of `.` and `/../n` is `../n`. */
  lemma {:induction false} DotRootClimbJoin(n: string)
    requires IsName(n)
    ensures Join([".", "/../" + n]) == "../" + n
  {
    var e1 := ["."];
    var e2 := e1 + [""];
    Extend(false, e1, "");
    var e3 := e2 + [".."];
    Extend(false, e2, "..");
    var e4 := e3 + [n];
    Extend(false, e3, n);
    assert Walk(false, e1, []) == Walk(false, [], []);
    DotClimbGlue(n);
    CleanByElements(e4);
    assert Render(false, [".."] + [n]) == ".." + [Sep] + n by {
      JoinSlashAppend([".."], [n]);
    }
    JoinTwo(".", "/../" + n);
  }

  /** The corrected handler refuses the climb under `.`. */
  lemma {:induction false} ConfinedRouteRefusesDotRootClimb(f: FastCGI, r: Request, stem: string)
    requires f.docRoot == "." && f.urlPrefix == ""
    requires Sep !in stem && 'h' !in stem && '\n' !in stem
    requires r.path == "/../" + stem + Ext
    ensures ConfinedRoute(f, r, true, true) == Reply(StatusBadRequest, InvalidUrl)
  {
    DotRootClimbClassified(f, r.path, stem);
    DotClimbOutside(stem);
  }

  /** Climbing out of the document root inside the script name and back in
      inside the path info passes the check, which sees the whole path come
      back to the root, while the script file is the script name cleaned on
      its own: a file directly under `/`, outside the document root. */
  lemma {:induction false} TraversalEscapesRoot(f: FastCGI, r: Request, d: string, stem: string)
    requires IsName(d) && '\n' !in d
    requires Sep !in stem && 'h' !in stem && '\n' !in stem
    requires f.docRoot == [Sep] + d && f.urlPrefix == ""
    requires r.path == "/../" + stem + Ext + "/../" + d
    ensures Admitted(f, r.path)
    ensures Route(f, r, true, true) ==
      Relay(BuildParams(r.defaults, Script("/../" + stem + Ext, "/../" + d, [Sep] + stem + Ext), r.tls))
    ensures !HasPrefix([Sep] + stem + Ext, f.docRoot + [Sep])
  {
    TraversalAdmitted(f, r.path, d, stem);
    TraversalClassified(f, r.path, d, stem);
    ScriptRequestNeedsRoundTrip(f, r, true);
    OutsideDirectory(d, stem);
  }

  lemma {:induction false} TraversalAdmitted(f: FastCGI, path: string, d: string, stem: string)
    requires IsName(d) && Sep !in stem
    requires f.docRoot == [Sep] + d
    requires path == "/../" + stem + Ext + "/../" + d
    ensures Admitted(f, path)
  {
    var script := stem + Ext;
    assert path == "/../" + script + "/../" + d;
    TraversalChecked(d, script);
    CleanTopLevel(d);
    assert HasPrefix([Sep] + d, [Sep] + d);
  }

  lemma {:induction false} TraversalClassified(f: FastCGI, path: string, d: string, stem: string)
    requires IsName(d) && '\n' !in d
    requires Sep !in stem && 'h' !in stem && '\n' !in stem
    requires f.docRoot == [Sep] + d && f.urlPrefix == ""
    requires path == "/../" + stem + Ext + "/../" + d
    ensures Classify(f, path) == Script("/../" + stem + Ext, "/../" + d, [Sep] + stem + Ext)
  {
    assert StripPrefix(f.urlPrefix, path) == path;
    TraversalSplit(path, stem, d);
    TraversalScriptFile(d, stem + Ext);
    StemShapes(stem);
  }

  lemma {:induction false} TraversalSplit(path: string, stem: string, d: string)
    requires Sep !in stem && 'h' !in stem && '\n' !in stem && '\n' !in d
    requires path == "/../" + stem + Ext + "/../" + d
    ensures SplitPathInfo(path) == Some(("/../" + stem + Ext, "/../" + d))
  {
    assert 'h' !in "/../" + stem;
    assert '\n' !in "/../" + stem;
    SplitAfterFirstExtension("/../" + stem, "/../" + d);
    assert path == "/../" + stem + Ext + ("/../" + d);
  }

  /** A `.php` file directly under `/` is not inside a directory directly
      under `/`. */
  lemma {:induction false} OutsideDirectory(d: string, stem: string)
    requires Sep !in stem
    ensures !HasPrefix([Sep] + stem + Ext, [Sep] + d + [Sep])
  {
    var script := stem + Ext;
    var sfn := [Sep] + stem + Ext;
    assert sfn == [Sep] + script;
    var dir := [Sep] + d + [Sep];
    if |dir| <= |sfn| {
      assert sfn[|d| + 1] == script[|d|] != Sep;
      assert dir[|d| + 1] == Sep;
      assert sfn[..|dir|][|d| + 1] != dir[|d| + 1];
    }
  }

  /** The check compares characters, not path elements: a directory next to
      the document root whose name starts with the root's name passes it,
      and the script in that directory is what the server runs. */
  lemma {:induction false} SiblingPassesCheck(f: FastCGI, r: Request, d: string, tail: string, stem: string)
    requires IsName(d) && tail != "" && Sep !in tail && Sep !in stem
    requires 'h' !in d && 'h' !in tail && 'h' !in stem
    requires '\n' !in d && '\n' !in tail && '\n' !in stem
    requires f.docRoot == [Sep] + d && f.urlPrefix == ""
    requires r.path == "/../" + d + tail + [Sep] + stem + Ext
    ensures Admitted(f, r.path)
    ensures Route(f, r, true, true) ==
      Relay(BuildParams(r.defaults, Script(r.path, "", [Sep] + d + tail + [Sep] + stem + Ext), r.tls))
    ensures !HasPrefix([Sep] + d + tail + [Sep] + stem + Ext, f.docRoot + [Sep])
  {
    SiblingAdmitted(f, r.path, d, tail, stem);
    SiblingClassified(f, r.path, d, tail, stem);
    ScriptRequestNeedsRoundTrip(f, r, true);
    SiblingOutside(d, tail, stem);
  }

  lemma {:induction false} SiblingAdmitted(f: FastCGI, path: string, d: string, tail: string, stem: string)
    requires IsName(d) && tail != "" && Sep !in tail && Sep !in stem
    requires f.docRoot == [Sep] + d
    requires path == "/../" + d + tail + [Sep] + stem + Ext
    ensures Admitted(f, path)
  {
    SiblingJoined(d, tail, stem);
    CleanTopLevel(d);
    SiblingPrefix(d, tail, stem);
  }

  lemma {:induction false} SiblingPrefix(d: string, tail: string, stem: string)
    ensures HasPrefix([Sep] + d + tail + [Sep] + stem + Ext, [Sep] + d)
  {
    var joined := [Sep] + d + tail + [Sep] + stem + Ext;
    assert joined[..|d| + 1] == [Sep] + d;
  }

  lemma {:induction false} SiblingClassified(f: FastCGI, path: string, d: string, tail: string, stem: string)
    requires IsName(d) && tail != "" && Sep !in tail && Sep !in stem
    requires 'h' !in d && 'h' !in tail && 'h' !in stem
    requires '\n' !in d && '\n' !in tail && '\n' !in stem
    requires f.docRoot == [Sep] + d && f.urlPrefix == ""
    requires path == "/../" + d + tail + [Sep] + stem + Ext
    ensures Classify(f, path) == Script(path, "", [Sep] + d + tail + [Sep] + stem + Ext)
  {
    var head := "/../" + d + tail + [Sep] + stem;
    assert 'h' !in head && '\n' !in head;
    SplitAfterFirstExtension(head, "");
    assert head + Ext + "" == path;
    SiblingJoined(d, tail, stem);
    assert StripPrefix(f.urlPrefix, path) == path;
  }

  /** The join of the root and the sibling path is the sibling path, cleaned. */
  lemma {:induction false} SiblingJoined(d: string, tail: string, stem: string)
    requires IsName(d) && tail != "" && Sep !in tail && Sep !in stem
    ensures Join([[Sep] + d, "/../" + d + tail + [Sep] + stem + Ext]) == [Sep] + d + tail + [Sep] + stem + Ext
  {
    var sib := d + tail;
    var script := stem + Ext;
    LongerName(d, tail);
    var elems := SiblingElements(d, sib, script);
    CleanByElements(elems);
    assert Render(true, [sib] + [script]) == [Sep] + (sib + [Sep] + script) by {
      JoinSlashAppend([sib], [script]);
    }
    SiblingShapes(d, tail, stem);
    JoinTwo([Sep] + d, "/../" + sib + [Sep] + script);
  }

  lemma {:induction false} LongerName(d: string, tail: string)
    requires IsName(d) && Sep !in tail
    ensures IsName(d + tail)
  {
    assert d == (d + tail)[..|d|];
  }

  lemma {:induction false} SiblingElements(d: string, sib: string, script: string) returns (e6: seq<string>)
    requires IsName(d) && IsName(sib) && IsName(script)
    ensures |e6| >= 1 && SepFree(e6)
    ensures JoinSlash(e6) == [Sep] + d + [Sep] + ("/../" + sib + [Sep] + script)
    ensures Walk(true, e6, []) == [sib] + [script]
  {
    var e2 := RootedPrefix(d);
    var e3 := e2 + [""];
    Extend(true, e2, "");
    var e4 := e3 + [".."];
    Extend(true, e3, "..");
    var e5 := e4 + [sib];
    Extend(true, e4, sib);
    e6 := e5 + [script];
    Extend(true, e5, script);
    SiblingGlue(d, sib, script);
  }

  /** The elements of `/d`, fed to a rooted stack. */
  lemma {:induction false} RootedPrefix(d: string) returns (e2: seq<string>)
    requires IsName(d)
    ensures e2 == ["", d] && SepFree(e2)
    ensures JoinSlash(e2) == "" + [Sep] + d
    ensures Walk(true, e2, []) == [d]
  {
    var e1 := [""];
    assert SepFree(e1) && JoinSlash(e1) == "";
    assert Walk(true, e1, []) == Walk(true, [], []);
    e2 := e1 + [d];
    Extend(true, e1, d);
  }

  /** The sibling's script is not inside the document root. */
  lemma {:induction false} SiblingOutside(d: string, tail: string, stem: string)
    requires tail != ""
    requires Sep !in tail
    ensures !HasPrefix([Sep] + d + tail + [Sep] + stem + Ext, [Sep] + d + [Sep])
  {
    var sfn := [Sep] + d + tail + [Sep] + stem + Ext;
    var dir := [Sep] + d + [Sep];
    if |dir| <= |sfn| {
      assert sfn[|d| + 1] == tail[0] != Sep;
      assert sfn[..|dir|][|d| + 1] != dir[|d| + 1];
    }
  }

  /** The prefix is deleted after the check: a path that climbs out of the
      prefix directory passes the check, which sees it come back into the
      document root, while the script name, once the prefix is deleted,
      climbs out of the document root itself. */
  lemma {:induction false} StripEscapesRoot(f: FastCGI, r: Request, d: string, q: string, stem: string)
    requires IsName(d) && IsName(q)
    requires Sep !in stem && 'h' !in stem && '\n' !in stem
    requires f.docRoot == [Sep] + d && f.urlPrefix == [Sep] + q
    requires r.path == [Sep] + q + "/../" + stem + Ext
    ensures Admitted(f, r.path)
    ensures Route(f, r, true, true) ==
      Relay(BuildParams(r.defaults, Script("/../" + stem + Ext, "", [Sep] + stem + Ext), r.tls))
    ensures !HasPrefix([Sep] + stem + Ext, f.docRoot + [Sep])
  {
    StripAdmitted(f, r.path, d, q, stem);
    StripClassified(f, r.path, d, q, stem);
    ScriptRequestNeedsRoundTrip(f, r, true);
    OutsideDirectory(d, stem);
  }

  lemma {:induction false} StripAdmitted(f: FastCGI, path: string, d: string, q: string, stem: string)
    requires IsName(d) && IsName(q) && Sep !in stem
    requires f.docRoot == [Sep] + d
    requires path == [Sep] + q + "/../" + stem + Ext
    ensures Admitted(f, path)
  {
    var script := stem + Ext;
    StripShapes(q, stem);
    StripJoined(d, q, script);
    CleanTopLevel(d);
    DirectoryPrefix(d, script);
  }

  lemma {:induction false} DirectoryPrefix(d: string, script: string)
    ensures HasPrefix([Sep] + d + [Sep] + script, [Sep] + d)
  {
    var joined := [Sep] + d + [Sep] + script;
    assert joined[..|d| + 1] == [Sep] + d;
  }

  lemma {:induction false} StripClassified(f: FastCGI, path: string, d: string, q: string, stem: string)
    requires IsName(d) && IsName(q)
    requires Sep !in stem && 'h' !in stem && '\n' !in stem
    requires f.docRoot == [Sep] + d && f.urlPrefix == [Sep] + q
    requires path == [Sep] + q + "/../" + stem + Ext
    ensures Classify(f, path) == Script("/../" + stem + Ext, "", [Sep] + stem + Ext)
  {
    var u := "/../" + stem + Ext;
    StripShapes(q, stem);
    assert HasPrefix(path, f.urlPrefix) by {
      assert path[..|f.urlPrefix|] == f.urlPrefix;
    }
    assert path[|f.urlPrefix|..] == u;
    assert 'h' !in "/../" + stem;
    assert '\n' !in "/../" + stem;
    SplitAfterFirstExtension("/../" + stem, "");
    assert "/../" + stem + Ext + "" == u;
    TraversalScriptFile(d, stem + Ext);
    StemShapes(stem);
  }

  /** The join of the root and the path is the root's name followed by the
      script: the path climbs out of the prefix directory only. */
  lemma {:induction false} StripJoined(d: string, q: string, script: string)
    requires IsName(d) && IsName(q) && IsName(script)
    ensures Join([[Sep] + d, [Sep] + q + "/../" + script]) == [Sep] + d + [Sep] + script
  {
    var elems := StripElements(d, q, script);
    CleanByElements(elems);
    assert Render(true, [d] + [script]) == [Sep] + (d + [Sep] + script) by {
      JoinSlashAppend([d], [script]);
    }
    assert [Sep] + (d + [Sep] + script) == [Sep] + d + [Sep] + script;
    JoinTwo([Sep] + d, [Sep] + q + "/../" + script);
  }

  lemma {:induction false} StripElements(d: string, q: string, script: string) returns (e6: seq<string>)
    requires IsName(d) && IsName(q) && IsName(script)
    ensures |e6| >= 1 && SepFree(e6)
    ensures JoinSlash(e6) == [Sep] + d + [Sep] + ([Sep] + q + "/../" + script)
    ensures Walk(true, e6, []) == [d] + [script]
  {
    var e2 := RootedPrefix(d);
    var e3 := e2 + [""];
    Extend(true, e2, "");
    var e4 := e3 + [q];
    Extend(true, e3, q);
    var e5 := e4 + [".."];
    Extend(true, e4, "..");
    e6 := e5 + [script];
    Extend(true, e5, script);
    StripGlue(d, q, script);
  }

  /** The corrected handler refuses the same request (unless the script file
      happens to be the document root itself). */
  lemma {:induction false} ConfinedRouteRefusesStrip(f: FastCGI, r: Request, d: string, q: string, stem: string)
    requires IsName(d) && IsName(q) && d != stem + Ext
    requires Sep !in stem && 'h' !in stem && '\n' !in stem
    requires f.docRoot == [Sep] + d && f.urlPrefix == [Sep] + q
    requires r.path == [Sep] + q + "/../" + stem + Ext
    ensures ConfinedRoute(f, r, true, true) == Reply(StatusBadRequest, InvalidUrl)
  {
    StripClassified(f, r.path, d, q, stem);
    CleanTopLevel(d);
    NotWithinTopLevel(d, stem);
  }

  /** One more element: joined after a separator, fed to the stack last. */
  lemma {:induction false} Extend(rooted: bool, init: seq<string>, e: string)
    requires |init| >= 1
    ensures JoinSlash(init + [e]) == JoinSlash(init) + [Sep] + e
    ensures Walk(rooted, init + [e], []) == Step(rooted, Walk(rooted, init, []), e)
    ensures SepFree(init) && Sep !in e ==> SepFree(init + [e])
  {
    JoinSlashAppend(init, [e]);
    WalkSnoc(rooted, init, e);
    assert forall k :: 0 <= k < |init| ==> (init + [e])[k] == init[k];
  }

  lemma {:induction false} TraversalChecked(d: string, script: string)
    requires IsName(d) && IsName(script)
    ensures Join([[Sep] + d, "/../" + script + "/../" + d]) == [Sep] + d
  {
    var elems := TraversalElements(d, script);
    CleanByElements(elems);
    JoinTwo([Sep] + d, "/../" + script + "/../" + d);
  }

  lemma {:induction false} TraversalElements(d: string, script: string) returns (e7: seq<string>)
    requires IsName(d) && IsName(script)
    ensures |e7| >= 1 && SepFree(e7)
    ensures JoinSlash(e7) == [Sep] + d + [Sep] + ("/../" + script + "/../" + d)
    ensures Walk(true, e7, []) == [d]
  {
    var e5 := ClimbElements(d, script);
    var e6 := e5 + [".."];
    Extend(true, e5, "..");
    e7 := e6 + [d];
    Extend(true, e6, d);
    TraversalGlue(d, script);
  }

  /** The elements of `/d//../script`, fed to a rooted stack. */
  lemma {:induction false} ClimbElements(d: string, script: string) returns (e5: seq<string>)
    requires IsName(d) && IsName(script)
    ensures |e5| >= 1 && SepFree(e5)
    ensures JoinSlash(e5) == "" + [Sep] + d + [Sep] + "" + [Sep] + ".." + [Sep] + script
    ensures Walk(true, e5, []) == [script]
  {
    var e2 := RootedPrefix(d);
    var e3 := e2 + [""];
    Extend(true, e2, "");
    var e4 := e3 + [".."];
    Extend(true, e3, "..");
    e5 := e4 + [script];
    Extend(true, e4, script);
  }

  lemma {:induction false} TraversalScriptFile(d: string, script: string)
    requires IsName(d) && IsName(script)
    ensures Join([[Sep] + d, "/../" + script]) == [Sep] + script
  {
    var e5 := ClimbElements(d, script);
    ScriptGlue(d, script);
    CleanByElements(e5);
    JoinTwo([Sep] + d, "/../" + script);
  }

  // Regrouping. The witnesses above write one path both as the chain of
  // elements `Clean` sees and as the pieces a request is built from; each
  // lemma here states that two such spellings are the same string. They are
  // kept apart from the witnesses because the solver proves each one at
  // once in this small context but slowly among the witnesses' other facts.

  lemma {:induction false} StemShapes(stem: string)
    ensures "/../" + stem + Ext == "/../" + (stem + Ext)
    ensures [Sep] + stem + Ext == [Sep] + (stem + Ext)
  {
  }

  lemma {:induction false} SiblingShapes(d: string, tail: string, stem: string)
    ensures "/../" + d + tail + [Sep] + stem + Ext == "/../" + (d + tail) + [Sep] + (stem + Ext)
    ensures [Sep] + d + tail + [Sep] + stem + Ext == [Sep] + ((d + tail) + [Sep] + (stem + Ext))
  {
  }

  lemma {:induction false} StripShapes(q: string, stem: string)
    ensures [Sep] + q + "/../" + stem + Ext == ([Sep] + q) + ("/../" + stem + Ext)
    ensures [Sep] + q + "/../" + stem + Ext == [Sep] + q + "/../" + (stem + Ext)
  {
  }

  lemma {:induction false} SiblingGlue(d: string, sib: string, script: string)
    ensures "" + [Sep] + d + [Sep] + "" + [Sep] + ".." + [Sep] + sib + [Sep] + script
      == [Sep] + d + [Sep] + ("/../" + sib + [Sep] + script)
  {
  }

  lemma {:induction false} TraversalGlue(d: string, script: string)
    ensures "" + [Sep] + d + [Sep] + "" + [Sep] + ".." + [Sep] + script + [Sep] + ".." + [Sep] + d
      == [Sep] + d + [Sep] + ("/../" + script + "/../" + d)
  {
  }

  lemma {:induction false} ScriptGlue(d: string, script: string)
    ensures "" + [Sep] + d + [Sep] + "" + [Sep] + ".." + [Sep] + script == [Sep] + d + [Sep] + ("/../" + script)
  {
  }

  lemma {:induction false} StripGlue(d: string, q: string, script: string)
    ensures "" + [Sep] + d + [Sep] + "" + [Sep] + q + [Sep] + ".." + [Sep] + script
      == [Sep] + d + [Sep] + ([Sep] + q + "/../" + script)
  {
  }

  lemma {:induction false} IndexShapes(root: string, u: string)
    ensures root + [Sep] + u + [Sep] + IndexScript == root + [Sep] + (u + [Sep] + IndexScript)
  {
  }

  lemma {:induction false} DotShapes(stem: string)
    ensures "/../" + stem + Ext == "/../" + (stem + Ext)
    ensures "../" + stem + Ext == "../" + (stem + Ext)
  {
  }

  lemma {:induction false} DotClimbGlue(n: string)
    ensures "." + [Sep] + "" + [Sep] + ".." + [Sep] + n == "." + [Sep] + ("/../" + n)
    ensures ".." + [Sep] + n == "../" + n
  {
  }

  // The check as evidently intended: the file the server is made to read,
  // not the request path, must lie inside the document root.

  /** `file` is `dir` or lies below it, for cleaned paths. */
  predicate Within(file: string, dir: string) {
    file == dir || HasPrefix(file, if dir == [Sep] then dir else dir + [Sep])
  }

  /** The file a classified request makes the server read. */
  function TargetFile(t: Target): (file: string) {
    match t
    case Script(_, _, scriptFileName) => scriptFileName
    case Static(file) => file
  }

  /** The handler with the containment check applied to the resolved file as
      well as to the request path; everything else is unchanged. */
  function ConfinedRoute(f: FastCGI, r: Request, dialOk: bool, doOk: bool): (o: Outcome) {
    if !Within(TargetFile(Classify(f, r.path)), Clean(f.docRoot)) then Reply(StatusBadRequest, InvalidUrl)
    else Route(f, r, dialOk, doOk)
  }

  /** The intended guarantee, which the corrected handler keeps: a script it
      sends to the FastCGI server and a file it serves are inside the
      document root. */
  lemma {:induction false} ConfinedRouteStaysInside(f: FastCGI, r: Request, dialOk: bool, doOk: bool)
    ensures var o := ConfinedRoute(f, r, dialOk, doOk);
      o.Relay? ==> "SCRIPT_FILENAME" in o.params && Within(o.params["SCRIPT_FILENAME"], Clean(f.docRoot))
    ensures var o := ConfinedRoute(f, r, dialOk, doOk);
      o.ServeFile? ==> Within(o.file, Clean(f.docRoot))
  {
    var t := Classify(f, r.path);
    if Within(TargetFile(t), Clean(f.docRoot)) && Admitted(f, r.path) && dialOk && t.Script? {
      assert Route(f, r, dialOk, doOk) == if doOk then Relay(BuildParams(r.defaults, t, r.tls)) else Reply(StatusBadGateway, "");
    }
  }

  /** The corrected handler refuses the traversal the original relays
      (unless the script file happens to be the document root itself). */
  lemma {:induction false} ConfinedRouteRefusesTraversal(f: FastCGI, r: Request, d: string, stem: string)
    requires IsName(d) && '\n' !in d && d != stem + Ext
    requires Sep !in stem && 'h' !in stem && '\n' !in stem
    requires f.docRoot == [Sep] + d && f.urlPrefix == ""
    requires r.path == "/../" + stem + Ext + "/../" + d
    ensures ConfinedRoute(f, r, true, true) == Reply(StatusBadRequest, InvalidUrl)
  {
    TraversalClassified(f, r.path, d, stem);
    CleanTopLevel(d);
    NotWithinTopLevel(d, stem);
  }

  lemma {:induction false} NotWithinTopLevel(d: string, stem: string)
    requires IsName(d) && Sep !in stem && d != stem + Ext
    ensures !Within([Sep] + stem + Ext, [Sep] + d)
  {
    OutsideDirectory(d, stem);
    assert [Sep] + stem + Ext == [Sep] + (stem + Ext);
    assert ([Sep] + (stem + Ext))[1..] == stem + Ext;
    assert ([Sep] + d)[1..] == d;
  }

  // The corrected handler changes nothing for ordinary requests.

  /** Under a rooted document root, a request whose stripped path never
      climbs gets from the corrected handler exactly what the original gives
      it: the added test refuses only requests that leave the root. */
  lemma {:induction false} ConfinedRouteAgreesOnPlainPaths(f: FastCGI, r: Request, dialOk: bool, doOk: bool)
    requires IsRooted(f.docRoot)
    requires ClimbsNowhere(StripPrefix(f.urlPrefix, r.path))
    ensures ConfinedRoute(f, r, dialOk, doOk) == Route(f, r, dialOk, doOk)
  {
    PlainTargetWithin(f, r.path);
  }

  /** The file a plain request resolves to lies within the document root. */
  lemma {:induction false} PlainTargetWithin(f: FastCGI, path: string)
    requires IsRooted(f.docRoot)
    requires ClimbsNowhere(StripPrefix(f.urlPrefix, path))
    ensures Within(TargetFile(Classify(f, path)), Clean(f.docRoot))
  {
    var u := StripPrefix(f.urlPrefix, path);
    var t := Classify(f, path);
    if HasScript(u) {
      ScriptNameClimbsNowhere(u, t.scriptName, t.pathInfo);
      JoinWithin(f.docRoot, t.scriptName);
    } else if HasSuffix(path, "/") {
      IndexWithin(f.docRoot, u);
    } else {
      JoinWithin(f.docRoot, u);
    }
  }

  /** A `.php`-ended front part of a path that never climbs does not climb
      either: its last element ends in `.php`, the others are the path's. */
  lemma {:induction false} ScriptNameClimbsNowhere(u: string, name: string, rest: string)
    requires u == name + rest && ClimbsNowhere(u)
    requires HasSuffix(name, Ext)
    ensures ClimbsNowhere(name)
  {
    var parts := Split(name);
    SplitOfPrefix(name, rest);
    LastElementHasSuffix(name, Ext);
    assert parts[|parts| - 1] != "..";
    forall k | 0 <= k < |parts|
      ensures parts[k] != ".."
    {
      if k < |parts| - 1 {
        assert parts[k] == Split(u)[k];
      }
    }
  }

  /** Joining a path that never climbs to a rooted root stays within it. */
  lemma {:induction false} JoinWithin(root: string, x: string)
    requires IsRooted(root) && ClimbsNowhere(x)
    ensures Within(Join([root, x]), Clean(root))
  {
    var g := root + [Sep] + x;
    JoinTwo(root, x);
    assert IsRooted(g);
    SplitAppend(root, x);
    var out := Walk(true, Split(root), []);
    WalkAppend(true, Split(root), Split(x), []);
    WalkWithoutDotDotExtends(true, Split(x), out);
    RenderWithin(out, Walk(true, Split(x), out));
  }

  /** The directory-index file of a path that never climbs stays within a
      rooted root. */
  lemma {:induction false} IndexWithin(root: string, u: string)
    requires IsRooted(root) && ClimbsNowhere(u)
    ensures Within(Join([root, u, IndexScript]), Clean(root))
  {
    var x := u + [Sep] + IndexScript;
    SplitAppend(u, IndexScript);
    assert Split(IndexScript) == [IndexScript];
    assert ClimbsNowhere(x) by {
      assert Split(x) == Split(u) + [IndexScript];
      forall k | 0 <= k < |Split(x)|
        ensures Split(x)[k] != ".."
      {
        if k < |Split(u)| {
          assert Split(x)[k] == Split(u)[k];
        }
      }
    }
    JoinThree(root, u, IndexScript);
    JoinTwo(root, x);
    IndexShapes(root, u);
    JoinWithin(root, x);
  }

  /** A rooted rendering of a longer stack lies within that of a shorter one
      below it, element by element. */
  lemma {:induction false} RenderWithin(out: seq<string>, more: seq<string>)
    requires out <= more
    ensures Within(Render(true, more), Render(true, out))
  {
    var rest := more[|out|..];
    assert more == out + rest;
    var file := Render(true, more);
    if |rest| == 0 {
      assert more == out;
    } else if |out| == 0 {
      assert Render(true, out) == [Sep];
      assert file[..1] == [Sep];
    } else {
      JoinSlashAppend(out, rest);
      var dir := Render(true, out);
      assert file == dir + [Sep] + JoinSlash(rest);
      assert file[..|dir| + 1] == dir + [Sep];
      assert file[..1] == [Sep];
    }
  }
}

=== FILE: filepath.dfy ===
/**
 Go's `path/filepath.Clean` and `path/filepath.Join` on a Unix host, where the
 separator is `/` and there is no volume name. `Clean` is the purely lexical
 normalisation Go documents:
   1. repeated separators collapse into one;
   2. `.` elements are dropped;
   3. a `..` element cancels the non-`..` element before it;
   4. `..` elements at the start of a rooted path are dropped;
   5. an empty result becomes `.`.
 The model splits the path into its `/`-separated elements, runs them through a
 stack (rules 1-4), and joins the stack back together (rule 5).
 */
module FilePath {
  import opened GoStrings

  const Sep: char := '/'

  predicate IsRooted(p: string) {
    |p| > 0 && p[0] == Sep
  }

  /** No element holds a separator. */
  predicate SepFree(elems: seq<string>) {
    forall k :: 0 <= k < |elems| ==> Sep !in elems[k]
  }

  /** Position of the first separator of `s`. */
  function FirstSep(s: string): (i: nat)
    requires Sep in s
    ensures i < |s| && s[i] == Sep
    ensures Sep !in s[..i]
  {
    if s[0] == Sep then 0
    else
      var i := 1 + FirstSep(s[1..]);
      assert s[..i] == [s[0]] + s[1..][..i - 1];
      i
  }

  /** The `/`-separated elements of `s`, empty ones included. */
  function Split(s: string): (parts: seq<string>)
    ensures |parts| >= 1
    ensures SepFree(parts)
    decreases |s|
  {
    if Sep !in s then [s]
    else
      var i := FirstSep(s);
      [s[..i]] + Split(s[i + 1..])
  }

  /** The elements joined back with `/` between consecutive ones. */
  function JoinSlash(parts: seq<string>): (r: string)
    decreases |parts|
  {
    if |parts| == 0 then ""
    else if |parts| == 1 then parts[0]
    else parts[0] + [Sep] + JoinSlash(parts[1..])
  }

  /** Splitting and re-joining gives the path back. */
  lemma {:induction false} JoinSplit(s: string)
    ensures JoinSlash(Split(s)) == s
    decreases |s|
  {
    if Sep in s {
      var i := FirstSep(s);
      var rest := Split(s[i + 1..]);
      assert Split(s) == [s[..i]] + rest;
      JoinSlashCons(s[..i], rest);
      JoinSplit(s[i + 1..]);
      assert s == s[..i] + [Sep] + s[i + 1..];
    }
  }

  /** Joining after a first element puts one separator after it. */
  lemma {:induction false} JoinSlashCons(a: string, rest: seq<string>)
    requires |rest| >= 1
    ensures JoinSlash([a] + rest) == a + [Sep] + JoinSlash(rest)
  {
    assert ([a] + rest)[1..] == rest;
  }

  /** Joining separator-free elements and splitting again gives the elements back. */
  lemma {:induction false} SplitJoin(parts: seq<string>)
    requires |parts| >= 1
    requires SepFree(parts)
    ensures Split(JoinSlash(parts)) == parts
    decreases |parts|
  {
    if |parts| > 1 {
      var s := JoinSlash(parts);
      var a := parts[0];
      assert s == a + [Sep] + JoinSlash(parts[1..]);
      assert s[|a|] == Sep;
      assert s[..|a|] == a;
      assert Sep in s;
      assert FirstSep(s) == |a| by {
        assert forall j :: 0 <= j < |a| ==> s[j] == a[j];
      }
      assert s[|a| + 1..] == JoinSlash(parts[1..]);
      SplitJoin(parts[1..]);
    }
  }

  /** An element that survives cleaning. */
  predicate Proper(e: string) {
    e != "" && e != "." && Sep !in e
  }

  /** The stack of elements after cleaning: proper elements only, no `..` in a
      rooted path, and in a relative path every `..` precedes every name. */
  ghost predicate Canonical(rooted: bool, out: seq<string>) {
    && (forall k :: 0 <= k < |out| ==> Proper(out[k]))
    && (rooted ==> forall k :: 0 <= k < |out| ==> out[k] != "..")
    && (forall j, k :: 0 <= j < k < |out| && out[k] == ".." ==> out[j] == "..")
  }

  /** One element's effect on the stack of cleaned elements. */
  function Step(rooted: bool, out: seq<string>, e: string): (r: seq<string>) {
    if e == "" || e == "." then out
    else if e == ".." then
      if |out| > 0 && out[|out| - 1] != ".." then out[..|out| - 1]
      else if rooted then out
      else out + [".."]
    else out + [e]
  }

  /** Feeds the elements to the stack from left to right. */
  function Walk(rooted: bool, elems: seq<string>, out: seq<string>): (r: seq<string>)
    decreases |elems|
  {
    if |elems| == 0 then out
    else Walk(rooted, elems[1..], Step(rooted, out, elems[0]))
  }

  /** Feeding separator-free elements to a canonical stack leaves it canonical. */
  lemma {:induction false} WalkKeepsCanonical(rooted: bool, elems: seq<string>, out: seq<string>)
    requires Canonical(rooted, out)
    requires SepFree(elems)
    ensures Canonical(rooted, Walk(rooted, elems, out))
    decreases |elems|
  {
    if |elems| > 0 {
      WalkKeepsCanonical(rooted, elems[1..], Step(rooted, out, elems[0]));
    }
  }

  /** A canonical stack passes through `Walk` unchanged. */
  lemma {:induction false} WalkCanonical(rooted: bool, elems: seq<string>, out: seq<string>)
    requires Canonical(rooted, out + elems)
    ensures Walk(rooted, elems, out) == out + elems
    decreases |elems|
  {
    assert forall k :: 0 <= k < |out| ==> out[k] == (out + elems)[k];
    assert forall k :: 0 <= k < |elems| ==> elems[k] == (out + elems)[|out| + k];
    if |elems| > 0 {
      var e := elems[0];
      assert (out + elems)[|out|] == e;
      if e == ".." && |out| > 0 {
        assert (out + elems)[|out| - 1] == "..";
      }
      assert Step(rooted, out, e) == out + [e];
      assert out + [e] + elems[1..] == out + elems;
      WalkCanonical(rooted, elems[1..], out + [e]);
    }
  }

  /** The last character of a join is the last character of its last element. */
  lemma {:induction false} JoinSlashLast(parts: seq<string>)
    requires |parts| >= 1 && parts[|parts| - 1] != ""
    ensures |JoinSlash(parts)| > 0
    ensures JoinSlash(parts)[|JoinSlash(parts)| - 1] == parts[|parts| - 1][|parts[|parts| - 1]| - 1]
    decreases |parts|
  {
    if |parts| > 1 {
      JoinSlashLast(parts[1..]);
    }
  }

  /** The cleaned form of a stack. */
  function Render(rooted: bool, out: seq<string>): (c: string) {
    var body := JoinSlash(out);
    if rooted then [Sep] + body else if body == "" then "." else body
  }

  /** `filepath.Clean`. The result is never empty, is rooted exactly when the
      input is, and ends in `/` only when it is the root itself. */
  function Clean(p: string): (c: string)
    ensures c != ""
    ensures IsRooted(c) <==> IsRooted(p)
    ensures c == [Sep] || c[|c| - 1] != Sep
  {
    var out := Walk(IsRooted(p), Split(p), []);
    WalkKeepsCanonical(IsRooted(p), Split(p), []);
    RenderShape(IsRooted(p), out);
    Render(IsRooted(p), out)
  }

  lemma {:induction false} RenderShape(rooted: bool, out: seq<string>)
    requires Canonical(rooted, out)
    ensures var c := Render(rooted, out);
      c != "" && (IsRooted(c) <==> rooted) && (c == [Sep] || c[|c| - 1] != Sep)
  {
    if |out| > 0 {
      JoinSlashLast(out);
      assert JoinSlash(out)[0] == out[0][0] by {
        if |out| > 1 {
          assert JoinSlash(out) == out[0] + [Sep] + JoinSlash(out[1..]);
        }
      }
      assert out[0][0] in out[0];
    }
  }

  /** Cleaning a stack's rendering recovers the stack. */
  lemma {:induction false} WalkRender(rooted: bool, out: seq<string>)
    requires Canonical(rooted, out)
    ensures Walk(IsRooted(Render(rooted, out)), Split(Render(rooted, out)), []) == out
    ensures IsRooted(Render(rooted, out)) == rooted
  {
    RenderShape(rooted, out);
    if |out| == 0 {
      EmptyStackRender(rooted);
    } else if rooted {
      RootedStackRender(out);
    } else {
      SplitJoin(out);
      WalkCanonical(false, out, []);
      assert [] + out == out;
    }
  }

  lemma {:induction false} EmptyStackRender(rooted: bool)
    ensures Walk(rooted, Split(Render(rooted, [])), []) == []
  {
    if rooted {
      assert Render(rooted, []) == [Sep];
      assert FirstSep([Sep]) == 0;
      assert Split([Sep]) == ["", ""];
      assert ["", ""][1..] == [""];
      assert Walk(rooted, [""], []) == Walk(rooted, [], []);
    } else {
      assert Render(rooted, []) == ".";
      assert Split(".") == ["."];
      assert Walk(rooted, ["."], []) == Walk(rooted, [], []);
    }
  }

  lemma {:induction false} RootedStackRender(out: seq<string>)
    requires |out| > 0 && Canonical(true, out)
    ensures Walk(true, Split(Render(true, out)), []) == out
  {
    var body := JoinSlash(out);
    assert Render(true, out) == "" + [Sep] + body;
    SplitAppend("", body);
    SplitJoin(out);
    assert Split(Render(true, out)) == [""] + out;
    WalkAppend(true, [""], out, []);
    WalkCanonical(true, out, []);
    assert [] + out == out;
  }

  /** `Clean` is idempotent: a cleaned path is its own cleaned form. */
  lemma {:induction false} CleanIdempotent(p: string)
    ensures Clean(Clean(p)) == Clean(p)
  {
    var out := Walk(IsRooted(p), Split(p), []);
    WalkKeepsCanonical(IsRooted(p), Split(p), []);
    WalkRender(IsRooted(p), out);
  }

  /** `Clean` looks only at the elements of its input: given any separator-free
      elements of a path, cleaning the path is feeding those elements to the
      stack and rendering the stack. */
  lemma {:induction false} CleanByElements(elems: seq<string>)
    requires |elems| >= 1
    requires SepFree(elems)
    ensures var p := JoinSlash(elems);
      Clean(p) == Render(IsRooted(p), Walk(IsRooted(p), elems, []))
  {
    SplitJoin(elems);
  }

  /** `filepath.Join`: leading empty elements are ignored; the remaining ones
      are joined with `/` and cleaned; if every element is empty the result is
      the empty string. */
  function Join(elems: seq<string>): (r: string)
    ensures r == "" <==> forall k :: 0 <= k < |elems| ==> elems[k] == ""
    ensures r != "" ==> Clean(r) == r
    decreases |elems|
  {
    if |elems| == 0 then ""
    else if elems[0] == "" then Join(elems[1..])
    else
      CleanIdempotent(JoinSlash(elems));
      Clean(JoinSlash(elems))
  }

  /** Joining two paths whose first is non-empty is cleaning them glued
      together with one separator. */
  lemma {:induction false} JoinTwo(a: string, b: string)
    requires a != ""
    ensures Join([a, b]) == Clean(a + [Sep] + b)
  {
    assert JoinSlash([a, b]) == a + [Sep] + JoinSlash([b]);
  }

  /** Feeding two runs of elements is feeding the first, then the second. */
  lemma {:induction false} WalkAppend(rooted: bool, a: seq<string>, b: seq<string>, out: seq<string>)
    ensures Walk(rooted, a + b, out) == Walk(rooted, b, Walk(rooted, a, out))
    decreases |a|
  {
    if |a| > 0 {
      assert (a + b)[0] == a[0];
      assert (a + b)[1..] == a[1..] + b;
      WalkAppend(rooted, a[1..], b, Step(rooted, out, a[0]));
    } else {
      assert a + b == b;
    }
  }

  /** Cutting a path short keeps every element before the last one it still
      reaches. */
  lemma {:induction false} SplitOfPrefix(p: string, rest: string)
    ensures |Split(p)| <= |Split(p + rest)|
    ensures forall k :: 0 <= k < |Split(p)| - 1 ==> Split(p)[k] == Split(p + rest)[k]
    decreases |p|
  {
    if Sep in p {
      var s := p + rest;
      var i := FirstSep(p);
      assert s[i] == Sep;
      var j := FirstSep(s);
      assert j == i by {
        assert s[..i] == p[..i];
        assert forall m :: 0 <= m < j ==> s[m] == s[..j][m];
        assert forall m :: 0 <= m < i ==> s[m] == p[..i][m];
      }
      assert s[..i] == p[..i];
      assert s[i + 1..] == p[i + 1..] + rest;
      SplitOfPrefix(p[i + 1..], rest);
    }
  }

  /** The last element of a path ends with every separator-free suffix of the path. */
  lemma {:induction false} LastElementHasSuffix(s: string, ext: string)
    requires Sep !in ext && HasSuffix(s, ext)
    ensures var parts := Split(s); HasSuffix(parts[|parts| - 1], ext)
  {
    var parts := Split(s);
    SplitLast(s);
    if |parts| > 1 {
      SuffixAfterSeparator(JoinSlash(parts[..|parts| - 1]), parts[|parts| - 1], ext);
    }
  }

  /** A path is its last element, after the join of the others and a separator
      when there are others. */
  lemma {:induction false} SplitLast(s: string)
    ensures |Split(s)| == 1 ==> s == Split(s)[0]
    ensures |Split(s)| > 1 ==> s == JoinSlash(Split(s)[..|Split(s)| - 1]) + [Sep] + Split(s)[|Split(s)| - 1]
  {
    JoinSplit(s);
    if |Split(s)| > 1 {
      JoinSlashSnoc(Split(s));
    }
  }

  /** Joining a list of two or more elements puts a separator before the last one. */
  lemma {:induction false} JoinSlashSnoc(parts: seq<string>)
    requires |parts| > 1
    ensures JoinSlash(parts) == JoinSlash(parts[..|parts| - 1]) + [Sep] + parts[|parts| - 1]
  {
    var init := parts[..|parts| - 1];
    var last := parts[|parts| - 1];
    assert parts == init + [last];
    JoinSlashAppend(init, [last]);
    assert JoinSlash([last]) == last;
  }

  /** A separator-free suffix of `pre + "/" + last` is a suffix of `last`. */
  lemma {:induction false} SuffixAfterSeparator(pre: string, last: string, ext: string)
    requires Sep !in ext && HasSuffix(pre + [Sep] + last, ext)
    ensures HasSuffix(last, ext)
  {
    var s := pre + [Sep] + last;
    assert s[|s| - |last| - 1] == Sep;
    assert forall k :: |s| - |ext| <= k < |s| ==> s[k] != Sep by {
      assert forall k :: |s| - |ext| <= k < |s| ==> s[k] == ext[k - (|s| - |ext|)];
    }
    assert s[|s| - |ext|..] == last[|last| - |ext|..];
  }

  /** The last element acts on the stack the others leave. */
  lemma {:induction false} WalkSnoc(rooted: bool, init: seq<string>, e: string)
    ensures Walk(rooted, init + [e], []) == Step(rooted, Walk(rooted, init, []), e)
  {
    WalkAppend(rooted, init, [e], []);
  }

  /** A rendered stack ends with its top element. */
  lemma {:induction false} RenderEndsWithTop(rooted: bool, out: seq<string>, e: string)
    ensures HasSuffix(Render(rooted, out + [e]), e)
  {
    var body := JoinSlash(out + [e]);
    if |out| > 0 {
      JoinSlashAppend(out, [e]);
    } else {
      assert out + [e] == [e];
    }
    assert body[|body| - |e|..] == e;
    if rooted {
      var c := [Sep] + body;
      assert c[|c| - |e|..] == body[|body| - |e|..];
    }
  }

  /** An element ending with a name other than `.` and `..` is itself such a name. */
  lemma {:induction false} EndsWithNameIsName(e: string, ext: string)
    requires Sep !in e
    requires ext != "" && ext != "." && ext != ".."
    requires HasSuffix(e, ext)
    ensures Proper(e) && e != ".."
  {
  }

  /** A cleaned path ends with the input's last element when that element is
      a name other than `..`. */
  lemma {:induction false} CleanEndsWithLastElement(s: string)
    requires var parts := Split(s); Proper(parts[|parts| - 1]) && parts[|parts| - 1] != ".."
    ensures var parts := Split(s); HasSuffix(Clean(s), parts[|parts| - 1])
  {
    var parts := Split(s);
    var n := |parts|;
    var last := parts[n - 1];
    var init := parts[..n - 1];
    var rooted := IsRooted(s);
    var out := Walk(rooted, init, []);
    assert Clean(s) == Render(rooted, out + [last]) by {
      assert parts == init + [last];
      WalkSnoc(rooted, init, last);
    }
    RenderEndsWithTop(rooted, out, last);
  }

  /** Cleaning keeps a path's last element when that element ends with a
      suffix that has no separator and is not `.` or `..`: the cleaned path
      still ends with that suffix. */
  lemma {:induction false} CleanKeepsSuffix(s: string, ext: string)
    requires Sep !in ext && ext != "" && ext != "." && ext != ".."
    requires HasSuffix(s, ext)
    ensures HasSuffix(Clean(s), ext)
  {
    var parts := Split(s);
    var last := parts[|parts| - 1];
    LastElementHasSuffix(s, ext);
    EndsWithNameIsName(last, ext);
    CleanEndsWithLastElement(s);
    SuffixOfSuffix(Clean(s), last, ext);
  }

  /** Joining three paths whose first is non-empty is cleaning them glued
      together with separators. */
  lemma {:induction false} JoinThree(a: string, b: string, c: string)
    requires a != ""
    ensures Join([a, b, c]) == Clean(a + [Sep] + b + [Sep] + c)
  {
    var xs := [a, b, c];
    assert JoinSlash(xs[1..]) == b + [Sep] + c by {
      assert xs[1..] == [b, c];
      assert [b, c][1..] == [c];
    }
    assert JoinSlash(xs) == a + [Sep] + (b + [Sep] + c);
    assert a + [Sep] + (b + [Sep] + c) == a + [Sep] + b + [Sep] + c;
    assert Join(xs) == Clean(JoinSlash(xs));
  }

  /** `filepath.Join` keeps the suffix of its last element, for a suffix that
      is a name other than `.` and `..`. */
  lemma {:induction false} JoinKeepsSuffix(elems: seq<string>, ext: string)
    requires Sep !in ext && ext != "" && ext != "." && ext != ".."
    requires |elems| >= 1
    requires HasSuffix(elems[|elems| - 1], ext)
    ensures HasSuffix(Join(elems), ext)
    decreases |elems|
  {
    if elems[0] == "" {
      assert elems[1..][|elems| - 2] == elems[|elems| - 1];
      JoinKeepsSuffix(elems[1..], ext);
    } else {
      var glued := JoinSlash(elems);
      JoinSlashEndsWithLast(elems);
      SuffixOfSuffix(glued, elems[|elems| - 1], ext);
      CleanKeepsSuffix(glued, ext);
    }
  }

  /** Joined elements end with the last element. */
  lemma {:induction false} JoinSlashEndsWithLast(elems: seq<string>)
    requires |elems| >= 1
    ensures HasSuffix(JoinSlash(elems), elems[|elems| - 1])
  {
    var last := elems[|elems| - 1];
    if |elems| > 1 {
      assert elems == elems[..|elems| - 1] + [last];
      JoinSlashAppend(elems[..|elems| - 1], [last]);
    }
  }

  /** Joining two non-empty runs of elements is joining each and putting a
      separator between them. */
  lemma {:induction false} JoinSlashAppend(a: seq<string>, b: seq<string>)
    requires |a| >= 1 && |b| >= 1
    ensures JoinSlash(a + b) == JoinSlash(a) + [Sep] + JoinSlash(b)
    decreases |a|
  {
    if |a| > 1 {
      assert (a + b)[1..] == a[1..] + b;
      JoinSlashAppend(a[1..], b);
    }
  }

  /** Splitting two paths glued with one separator is splitting each. */
  lemma {:induction false} SplitAppend(a: string, b: string)
    ensures Split(a + [Sep] + b) == Split(a) + Split(b)
  {
    JoinSplit(a);
    JoinSplit(b);
    JoinSlashAppend(Split(a), Split(b));
    SplitJoin(Split(a) + Split(b));
  }

  /** Rule 1 of `Clean`: a doubled separator counts as one. */
  lemma {:induction false} CleanCollapsesSeparators(a: string, b: string)
    ensures Clean(a + [Sep] + [Sep] + b) == Clean(a + [Sep] + b)
  {
    var long := a + [Sep] + [Sep] + b;
    var short := a + [Sep] + b;
    DoubledSeparatorElements(a, b);
    SplitAppend(a, b);
    assert IsRooted(long) == IsRooted(short) by {
      assert |a| == 0 ==> long[0] == Sep && short[0] == Sep;
      assert |a| > 0 ==> long[0] == a[0] && short[0] == a[0];
    }
    WalkSkipsEmpty(IsRooted(short), Split(a), Split(b));
  }

  /** The elements of `a//b` are those of `a`, an empty one, and those of `b`. */
  lemma {:induction false} DoubledSeparatorElements(a: string, b: string)
    ensures Split(a + [Sep] + [Sep] + b) == Split(a) + [""] + Split(b)
  {
    assert a + [Sep] + [Sep] + b == a + [Sep] + ("" + [Sep] + b);
    SplitAppend(a, "" + [Sep] + b);
    SplitAppend("", b);
    assert Split("") == [""];
    assert Split(a) + ([""] + Split(b)) == Split(a) + [""] + Split(b);
  }

  /** An empty element leaves the stack alone. */
  lemma {:induction false} WalkSkipsEmpty(rooted: bool, x: seq<string>, y: seq<string>)
    ensures Walk(rooted, x + [""] + y, []) == Walk(rooted, x + y, [])
  {
    WalkAppend(rooted, x + [""], y, []);
    WalkAppend(rooted, x, [""], []);
    assert Walk(rooted, [""], Walk(rooted, x, [])) == Walk(rooted, x, []);
    WalkAppend(rooted, x, y, []);
  }

  /** A `/` element in the middle of a join adds nothing. */
  lemma {:induction false} JoinSkipsSlash(a: string, b: string)
    requires a != ""
    ensures Join([a, [Sep], b]) == Join([a, b])
  {
    JoinThree(a, [Sep], b);
    JoinTwo(a, b);
    CollapseTwice(a, b);
  }

  /** A leading `/` on a later element of a join adds nothing. */
  lemma {:induction false} JoinIgnoresLeadingSlash(a: string, b: string)
    requires a != ""
    ensures Join([a, [Sep] + b]) == Join([a, b])
  {
    JoinTwo(a, [Sep] + b);
    JoinTwo(a, b);
    assert a + [Sep] + ([Sep] + b) == a + [Sep] + [Sep] + b;
    CleanCollapsesSeparators(a, b);
  }

  lemma {:induction false} CollapseTwice(a: string, b: string)
    ensures Clean(a + [Sep] + [Sep] + [Sep] + b) == Clean(a + [Sep] + b)
  {
    assert a + [Sep] + [Sep] + [Sep] + b == (a + [Sep]) + [Sep] + [Sep] + b;
    CleanCollapsesSeparators(a + [Sep], b);
    assert (a + [Sep]) + [Sep] + b == a + [Sep] + [Sep] + b;
    CleanCollapsesSeparators(a, b);
  }

  /** Without `..` elements the stack only grows: what was on it stays at
      its bottom. */
  lemma {:induction false} WalkWithoutDotDotExtends(rooted: bool, elems: seq<string>, out: seq<string>)
    requires forall k :: 0 <= k < |elems| ==> elems[k] != ".."
    ensures out <= Walk(rooted, elems, out)
    decreases |elems|
  {
    if |elems| > 0 {
      var next := Step(rooted, out, elems[0]);
      assert out <= next;
      WalkWithoutDotDotExtends(rooted, elems[1..], next);
    }
  }

  /** A rooted rendering of a longer stack starts with that of a shorter one
      below it, as a string. */
  lemma {:induction false} RenderExtends(out: seq<string>, more: seq<string>)
    requires out <= more
    ensures |Render(true, out)| <= |Render(true, more)|
    ensures Render(true, more)[..|Render(true, out)|] == Render(true, out)
  {
    var rest := more[|out|..];
    assert more == out + rest;
    if |out| > 0 && |rest| > 0 {
      JoinSlashAppend(out, rest);
    } else if |out| == 0 {
      assert Render(true, out) == [Sep];
      assert Render(true, more)[..1] == [Sep];
    } else {
      assert more == out;
    }
  }
}

=== FILE: gateway.dfy ===
/**
 The gateway's request handler (`FastCGI.FastCGIPass` in fastcgi.go) as one
 pure function from the configuration, the request and the results of the two
 calls into the outside world (the dial and the FastCGI round trip) to what the
 handler does with the response writer.

 Per request the handler:
   1. rejects with 400 "invalid url" unless the cleaned join of document root
      and URL path starts, as a character string, with the cleaned document
      root;
   2. dials the FastCGI server and answers 502 if that fails;
   3. deletes the first occurrence of the URL prefix from the path;
   4. splits the stripped path with the `.php` pattern; without a match, a URL
      path ending in `/` becomes a request for `index.php`, and anything else
      is handed to the static file server;
   5. overrides five parameters of the FastCGI request and runs it, answering
      502 if that fails and relaying the response otherwise.
 */
module Gateway {
  import opened Wrappers
  import opened GoStrings
  import opened FilePath
  import opened PathInfo

  type Params = map<string, string>

  const StatusBadRequest: int := 400
  const StatusBadGateway: int := 502
  const InvalidUrl: string := "invalid url"
  const IndexScript: string := "index.php"

  /** The handler's configuration. The transport fields are carried along but
      only the dial's success matters to the model. */
  datatype FastCGI = FastCGI(network: string, addr: string, docRoot: string, urlPrefix: string)

  /** What the handler reads from the HTTP request: the decoded URL path,
      whether the request came over TLS, and the parameter map that the
      FastCGI client's `NewRequest` derived from it (left opaque). */
  datatype Request = Request(path: string, tls: bool, defaults: Params)

  /** What the handler does with the response writer. */
  datatype Outcome =
    | Reply(status: int, body: string)  // writes a status line and a body, nothing else
    | ServeFile(file: string)           // hands the request to the static file server
    | Relay(params: Params)             // ran the FastCGI request and streams its response

  /** Where a request that passed the check is sent. */
  datatype Target =
    | Script(scriptName: string, pathInfo: string, scriptFileName: string)
    | Static(file: string)

  /** `NewFastCGI`: keeps the transport and document root as given and stores
      the URL prefix without its trailing slashes. */
  function NewFastCGI(network: string, addr: string, docRoot: string, urlPrefix: string): (f: FastCGI)
    ensures f.network == network && f.addr == addr && f.docRoot == docRoot
    ensures HasPrefix(urlPrefix, f.urlPrefix)
    ensures !HasSuffix(f.urlPrefix, "/")
    ensures forall k :: |f.urlPrefix| <= k < |urlPrefix| ==> urlPrefix[k] == '/'
  {
    FastCGI(network, addr, docRoot, TrimRight(urlPrefix, '/'))
  }

  /** A prefix made of slashes only, `"/"` included, is stored as the empty
      prefix, which switches stripping off. */
  lemma {:induction false} SlashOnlyPrefixIsEmpty(network: string, addr: string, docRoot: string, urlPrefix: string)
    requires forall k :: 0 <= k < |urlPrefix| ==> urlPrefix[k] == '/'
    ensures NewFastCGI(network, addr, docRoot, urlPrefix).urlPrefix == ""
  {
  }

  /** Normalising an already stored prefix changes nothing. */
  lemma {:induction false} NewFastCGIIdempotent(network: string, addr: string, docRoot: string, urlPrefix: string)
    ensures var f := NewFastCGI(network, addr, docRoot, urlPrefix);
      NewFastCGI(network, addr, docRoot, f.urlPrefix) == f
  {
  }

  /** The containment check of the handler: a character-prefix test of the
      cleaned document root against the cleaned join of root and path. */
  predicate Admitted(f: FastCGI, path: string) {
    HasPrefix(Clean(Join([f.docRoot, path])), Clean(f.docRoot))
  }

  /** The URL path with the configured prefix taken out. An empty prefix
      leaves the path alone; otherwise the first occurrence of the prefix,
      wherever it is, is deleted, and a path without it is unchanged. */
  function StripPrefix(prefix: string, path: string): (urlPath: string)
    ensures prefix == "" || !Contains(path, prefix) ==> urlPath == path
    ensures HasPrefix(path, prefix) ==> urlPath == path[|prefix|..]
    ensures prefix != "" && Contains(path, prefix) ==>
      |urlPath| == |path| - |prefix| &&
      exists i: nat :: OccursAt(path, prefix, i) && (forall j :: 0 <= j < i ==> !OccursAt(path, prefix, j))
        && urlPath == path[..i] + path[i + |prefix|..]
  {
    if prefix == "" then path
    else
      DeleteOnceOfPrefixIfPresent(path, prefix);
      DeleteOnceChangesIffContains(path, prefix);
      ReplaceOnce(path, prefix, "")
  }

  lemma {:induction false} DeleteOnceOfPrefixIfPresent(path: string, prefix: string)
    ensures HasPrefix(path, prefix) ==> ReplaceOnce(path, prefix, "") == path[|prefix|..]
  {
    if HasPrefix(path, prefix) {
      DeleteOnceOfPrefix(path, prefix);
    }
  }

  /** The stripped path has a `.php` split: it contains `.php` and no newline. */
  ghost predicate HasScript(urlPath: string) {
    '\n' !in urlPath && Contains(urlPath, Ext)
  }

  /** Steps 3 and 4: where a request that passed the check goes. A stripped
      path with a `.php` split is a script request whose name is the shortest
      `.php` prefix and whose path info is the rest; without one, a URL path
      ending in `/` asks for `index.php` with empty path info, and any other
      is the static file at the join of the document root and the stripped
      path. */
  function Classify(f: FastCGI, path: string): (t: Target)
    ensures var u := StripPrefix(f.urlPrefix, path);
      HasScript(u) ==>
        && t.Script?
        && t.scriptName + t.pathInfo == u
        && HasSuffix(t.scriptName, Ext)
        && (forall n :: 0 <= n < |t.scriptName| ==> !HasSuffix(u[..n], Ext))
        && t.scriptFileName == Join([f.docRoot, t.scriptName])
    ensures var u := StripPrefix(f.urlPrefix, path);
      !HasScript(u) && HasSuffix(path, "/") ==>
        t == Script(Join([path, IndexScript]), "", Join([f.docRoot, u, IndexScript]))
    ensures var u := StripPrefix(f.urlPrefix, path);
      t.Static? <==> !HasScript(u) && !HasSuffix(path, "/")
    ensures t.Static? ==> t.file == Join([f.docRoot, StripPrefix(f.urlPrefix, path)])
  {
    var urlPath := StripPrefix(f.urlPrefix, path);
    match SplitPathInfo(urlPath)
    case Some((scriptName, pathInfo)) =>
      Script(scriptName, pathInfo, Join([f.docRoot, scriptName]))
    case None =>
      if HasSuffix(path, "/") then
        Script(Join([path, IndexScript]), "", Join([f.docRoot, urlPath, IndexScript]))
      else
        Static(Join([f.docRoot, urlPath]))
  }

  /** `REQUEST_SCHEME`. */
  function Scheme(tls: bool): (scheme: string)
    ensures scheme == "https" <==> tls
    ensures scheme == "http" <==> !tls
  {
    if tls then "https" else "http"
  }

  /** Step 5: the parameters sent to the FastCGI server. The five keys the
      handler sets hold the script's names and the scheme; every other key
      keeps the value the client's `NewRequest` gave it. */
  function BuildParams(defaults: Params, t: Target, tls: bool): (p: Params)
    requires t.Script?
    ensures p.Keys == defaults.Keys + {"SCRIPT_NAME", "PHP_SELF", "PATH_INFO", "SCRIPT_FILENAME", "REQUEST_SCHEME"}
    ensures p["SCRIPT_NAME"] == t.scriptName && p["PHP_SELF"] == t.scriptName
    ensures p["PATH_INFO"] == t.pathInfo
    ensures p["SCRIPT_FILENAME"] == t.scriptFileName
    ensures p["REQUEST_SCHEME"] == "https" <==> tls
    ensures p["REQUEST_SCHEME"] == "http" <==> !tls
    ensures forall key :: key in defaults && key !in {"SCRIPT_NAME", "PHP_SELF", "PATH_INFO", "SCRIPT_FILENAME", "REQUEST_SCHEME"} ==>
      p[key] == defaults[key]
  {
    defaults["SCRIPT_NAME" := t.scriptName]["PHP_SELF" := t.scriptName]["PATH_INFO" := t.pathInfo]
      ["SCRIPT_FILENAME" := t.scriptFileName]["REQUEST_SCHEME" := Scheme(tls)]
  }

  /** `FastCGIPass`. `dialOk` is whether `net.Dial` succeeded and `doOk`
      whether `client.Do` did. A relayed response always went through a
      successful dial and round trip; a static serve needs only the dial. */
  function Route(f: FastCGI, r: Request, dialOk: bool, doOk: bool): (o: Outcome)
    ensures o.Relay? ==> dialOk && doOk && Admitted(f, r.path)
    ensures o.ServeFile? ==> dialOk && Admitted(f, r.path)
    ensures o.Reply? ==> o.status in {StatusBadRequest, StatusBadGateway}
  {
    if !Admitted(f, r.path) then Reply(StatusBadRequest, InvalidUrl)
    else if !dialOk then Reply(StatusBadGateway, "")
    else
      match Classify(f, r.path)
      case Static(file) => ServeFile(file)
      case Script(_, _, _) =>
        var params := BuildParams(r.defaults, Classify(f, r.path), r.tls);
        if !doOk then Reply(StatusBadGateway, "") else Relay(params)
  }

  /** The check decides rejection alone: a request is answered 400
      "invalid url" exactly when the cleaned join of document root and path
      does not start with the cleaned document root, and then neither the
      dial nor the FastCGI round trip has any bearing on the answer. */
  lemma {:induction false} RejectsExactlyWhenCheckFails(f: FastCGI, r: Request, dialOk: bool, doOk: bool)
    ensures Route(f, r, dialOk, doOk) == Reply(StatusBadRequest, InvalidUrl) <==>
      !HasPrefix(Clean(Join([f.docRoot, r.path])), Clean(f.docRoot))
    ensures !HasPrefix(Clean(Join([f.docRoot, r.path])), Clean(f.docRoot)) ==>
      forall d, o :: Route(f, r, d, o) == Reply(StatusBadRequest, InvalidUrl)
  {
  }

  /** The outer `Clean` of the check is a no-op unless both document root and
      path are empty, where it turns `""` into `"."`. */
  lemma {:induction false} CheckedPathIsJoin(f: FastCGI, path: string)
    ensures f.docRoot != "" || path != "" ==> Clean(Join([f.docRoot, path])) == Join([f.docRoot, path])
    ensures f.docRoot == "" && path == "" ==> Clean(Join([f.docRoot, path])) == "."
  {
    if f.docRoot == "" && path == "" {
      assert Join([f.docRoot, path]) == "";
      assert Split("") == [""];
      assert Walk(false, [""], []) == [];
    }
  }

  /** The dial comes before classification: once the check passes, a failed
      dial answers 502 whatever the path, static files included. */
  lemma {:induction false} DialFailureIsBadGateway(f: FastCGI, r: Request, doOk: bool)
    requires Admitted(f, r.path)
    ensures Route(f, r, false, doOk) == Reply(StatusBadGateway, "")
  {
  }

  /** A path with no `.php` split and no trailing `/` is handed to the static
      file server as the join of document root and stripped path; the
      FastCGI round trip is never made, so its result does not matter. */
  lemma {:induction false} StaticRequestIsServedFromDocRoot(f: FastCGI, r: Request, doOk: bool)
    requires Admitted(f, r.path)
    requires !HasScript(StripPrefix(f.urlPrefix, r.path)) && !HasSuffix(r.path, "/")
    ensures Route(f, r, true, doOk) == ServeFile(Join([f.docRoot, StripPrefix(f.urlPrefix, r.path)]))
  {
  }

  /** A script request builds its parameters and then answers 502 exactly
      when the FastCGI round trip fails. */
  lemma {:induction false} ScriptRequestNeedsRoundTrip(f: FastCGI, r: Request, doOk: bool)
    requires Admitted(f, r.path)
    requires Classify(f, r.path).Script?
    ensures Route(f, r, true, doOk) == Reply(StatusBadGateway, "") <==> !doOk
    ensures doOk ==> Route(f, r, true, doOk) == Relay(BuildParams(r.defaults, Classify(f, r.path), r.tls))
  {
  }

  /** End to end, for a path with a `.php` split: the relayed parameters name
      the shortest `.php` prefix of the stripped path as the script, the rest
      as path info, the join of the document root and the script name as the
      file, and the scheme by the request's TLS flag; the other parameters are the client's. */
  lemma {:induction false} ScriptParamsOfMatch(f: FastCGI, r: Request)
    requires Admitted(f, r.path)
    requires HasScript(StripPrefix(f.urlPrefix, r.path))
    ensures var o := Route(f, r, true, true);
      var u := StripPrefix(f.urlPrefix, r.path);
      && o.Relay?
      && o.params["SCRIPT_NAME"] + o.params["PATH_INFO"] == u
      && o.params["PHP_SELF"] == o.params["SCRIPT_NAME"]
      && HasSuffix(o.params["SCRIPT_NAME"], Ext)
      && (forall n :: 0 <= n < |o.params["SCRIPT_NAME"]| ==> !HasSuffix(u[..n], Ext))
      && o.params["SCRIPT_FILENAME"] == Join([f.docRoot, o.params["SCRIPT_NAME"]])
      && o.params["REQUEST_SCHEME"] == Scheme(r.tls)
      && (forall key :: key in r.defaults && key !in {"SCRIPT_NAME", "PHP_SELF", "PATH_INFO", "SCRIPT_FILENAME", "REQUEST_SCHEME"} ==>
            key in o.params && o.params[key] == r.defaults[key])
  {
  }

  /** End to end, for a directory URL without a `.php` split: the script name
      comes from the unstripped URL path and the file name from the stripped
      one, both with `index.php` appended, and the path info is empty. */
  lemma {:induction false} ScriptParamsOfDirectoryIndex(f: FastCGI, r: Request)
    requires Admitted(f, r.path)
    requires !HasScript(StripPrefix(f.urlPrefix, r.path)) && HasSuffix(r.path, "/")
    ensures var o := Route(f, r, true, true);
      && o.Relay?
      && o.params["SCRIPT_NAME"] == Join([r.path, IndexScript])
      && o.params["PHP_SELF"] == Join([r.path, IndexScript])
      && o.params["PATH_INFO"] == ""
      && o.params["SCRIPT_FILENAME"] == Join([f.docRoot, StripPrefix(f.urlPrefix, r.path), IndexScript])
  {
  }

  /** The two ways of asking for the index script under a prefix reach the
      same file but name the script differently: the directory URL keeps the
      prefix in `SCRIPT_NAME`, the explicit URL loses it with the rest of the
      prefix. */
  lemma {:induction false} DirectoryIndexKeepsPrefix(f: FastCGI, r: Request)
    requires f.urlPrefix != "" && f.docRoot != ""
    requires r.path == f.urlPrefix + [Sep]
    requires Admitted(f, r.path)
    ensures Route(f, r, true, true) ==
      Relay(BuildParams(r.defaults, Script(Join([r.path, IndexScript]), "", Join([f.docRoot, IndexScript])), r.tls))
  {
    DirectoryIndexTarget(f, r.path);
    ScriptRequestNeedsRoundTrip(f, r, true);
  }

  lemma {:induction false} DirectoryIndexTarget(f: FastCGI, path: string)
    requires f.urlPrefix != "" && f.docRoot != ""
    requires path == f.urlPrefix + [Sep]
    ensures Classify(f, path) == Script(Join([path, IndexScript]), "", Join([f.docRoot, IndexScript]))
  {
    assert StripPrefix(f.urlPrefix, path) == [Sep];
    SlashHasNoScript();
    JoinSkipsSlash(f.docRoot, IndexScript);
  }

  lemma {:induction false} SlashHasNoScript()
    ensures !HasScript([Sep])
  {
    assert forall j: nat :: !OccursAt([Sep], Ext, j);
  }

  lemma {:induction false} ExplicitIndexDropsPrefix(f: FastCGI, r: Request)
    requires f.urlPrefix != "" && f.docRoot != ""
    requires r.path == f.urlPrefix + [Sep] + IndexScript
    requires Admitted(f, r.path)
    ensures Route(f, r, true, true) ==
      Relay(BuildParams(r.defaults, Script([Sep] + IndexScript, "", Join([f.docRoot, IndexScript])), r.tls))
  {
    ExplicitIndexTarget(f, r.path);
    ScriptRequestNeedsRoundTrip(f, r, true);
  }

  lemma {:induction false} ExplicitIndexTarget(f: FastCGI, path: string)
    requires f.urlPrefix != "" && f.docRoot != ""
    requires path == f.urlPrefix + [Sep] + IndexScript
    ensures Classify(f, path) == Script([Sep] + IndexScript, "", Join([f.docRoot, IndexScript]))
  {
    assert StripPrefix(f.urlPrefix, path) == [Sep] + IndexScript by {
      assert path == f.urlPrefix + ([Sep] + IndexScript);
    }
    IndexUrlSplit();
    JoinIgnoresLeadingSlash(f.docRoot, IndexScript);
  }

  lemma {:induction false} IndexUrlSplit()
    ensures SplitPathInfo([Sep] + IndexScript) == Some(([Sep] + IndexScript, ""))
  {
    SplitAfterFirstExtension("/index", "");
    assert "/index" + Ext == [Sep] + IndexScript;
    assert "/index" + Ext + "" == [Sep] + IndexScript;
  }

  /** Every request sent to the FastCGI server names a script ending in
      `.php`, both as URL path and as file name: the split guarantees it for
      the script name, and cleaning the join with the document root keeps a
      last element ending in `.php`. */
  lemma {:induction false} ScriptTargetsArePhp(f: FastCGI, path: string)
    requires Classify(f, path).Script?
    ensures HasSuffix(Classify(f, path).scriptName, Ext)
    ensures HasSuffix(Classify(f, path).scriptFileName, Ext)
  {
    var t := Classify(f, path);
    var u := StripPrefix(f.urlPrefix, path);
    if HasScript(u) {
      assert t.scriptFileName == Join([f.docRoot, t.scriptName]);
      JoinEndsInPhp([f.docRoot, t.scriptName]);
    } else {
      assert t == Script(Join([path, IndexScript]), "", Join([f.docRoot, u, IndexScript]));
      IndexScriptIsPhp();
      JoinEndsInPhp([path, IndexScript]);
      JoinEndsInPhp([f.docRoot, u, IndexScript]);
    }
  }

  lemma {:induction false} IndexScriptIsPhp()
    ensures HasSuffix(IndexScript, Ext)
  {
    assert IndexScript == "index" + Ext;
  }

  lemma {:induction false} JoinEndsInPhp(elems: seq<string>)
    requires |elems| >= 1 && HasSuffix(elems[|elems| - 1], Ext)
    ensures HasSuffix(Join(elems), Ext)
  {
    JoinKeepsSuffix(elems, Ext);
  }
}

=== FILE: gostrings.dfy ===
/**
 The few helpers of Go's `strings` package that the gateway uses, written out
 over `seq<char>`: `HasPrefix`, `HasSuffix`, `TrimRight` with a one-character
 cut set, `Index` and `Replace` with a replacement count of one.
 */
module GoStrings {
  import opened Wrappers

  /** `strings.HasPrefix`: a plain character-prefix test, not a path test. */
  predicate HasPrefix(s: string, prefix: string) {
    |prefix| <= |s| && s[..|prefix|] == prefix
  }

  /** `strings.HasSuffix`. */
  predicate HasSuffix(s: string, suffix: string) {
    |suffix| <= |s| && s[|s| - |suffix|..] == suffix
  }

  /** `HasPrefix` holds exactly when `s` is `prefix` followed by something. */
  lemma {:induction false} PrefixIffConcat(s: string, prefix: string)
    ensures HasPrefix(s, prefix) <==> exists t :: s == prefix + t
  {
    if HasPrefix(s, prefix) {
      assert s == prefix + s[|prefix|..];
    }
    if exists t :: s == prefix + t {
      var t :| s == prefix + t;
      assert s[..|prefix|] == prefix;
    }
  }

  /** `HasSuffix` holds exactly when `s` is something followed by `suffix`. */
  lemma {:induction false} SuffixIffConcat(s: string, suffix: string)
    ensures HasSuffix(s, suffix) <==> exists t :: s == t + suffix
  {
    if HasSuffix(s, suffix) {
      assert s == s[..|s| - |suffix|] + suffix;
    }
    if exists t :: s == t + suffix {
      var t :| s == t + suffix;
      assert s[|s| - |suffix|..] == suffix;
    }
  }

  /** A suffix of a suffix is a suffix. */
  lemma {:induction false} SuffixOfSuffix(a: string, b: string, c: string)
    requires HasSuffix(a, b) && HasSuffix(b, c)
    ensures HasSuffix(a, c)
  {
    assert a[|a| - |c|..] == a[|a| - |b|..][|b| - |c|..];
  }

  /** `sub` occurs in `s` starting at position `j`. */
  predicate OccursAt(s: string, sub: string, j: nat) {
    j + |sub| <= |s| && s[j..j + |sub|] == sub
  }

  /** `strings.Contains`, stated as an independent existential. */
  ghost predicate Contains(s: string, sub: string) {
    exists j: nat :: OccursAt(s, sub, j)
  }

  /** `strings.TrimRight(s, cutset)` for a one-character cut set: removes every
      trailing occurrence of `c`. The result is the longest prefix of `s` that
      does not end in `c`, and what was cut off consists of `c` only. */
  function TrimRight(s: string, c: char): (r: string)
    ensures HasPrefix(s, r)
    ensures |r| == 0 || r[|r| - 1] != c
    ensures forall k :: |r| <= k < |s| ==> s[k] == c
    decreases |s|
  {
    if |s| > 0 && s[|s| - 1] == c then TrimRight(s[..|s| - 1], c) else s
  }

  /** Leftmost occurrence of `sub` in `s` at or after `from`. */
  function IndexFrom(s: string, sub: string, from: nat): (r: Option<nat>)
    ensures r.Some? ==> from <= r.value && OccursAt(s, sub, r.value)
    ensures r.Some? ==> forall j :: from <= j < r.value ==> !OccursAt(s, sub, j)
    ensures r.None? ==> forall j :: from <= j ==> !OccursAt(s, sub, j)
    decreases |s| - from
  {
    if from + |sub| > |s| then None
    else if s[from..from + |sub|] == sub then Some(from)
    else IndexFrom(s, sub, from + 1)
  }

  /** `strings.Index`, with `None` for Go's -1. */
  function Index(s: string, sub: string): (r: Option<nat>)
    ensures r.Some? ==> OccursAt(s, sub, r.value)
    ensures r.Some? ==> forall j :: 0 <= j < r.value ==> !OccursAt(s, sub, j)
    ensures r.None? <==> !Contains(s, sub)
  {
    IndexFrom(s, sub, 0)
  }

  /** `strings.Replace(s, target, repl, 1)`: the leftmost occurrence of `target`, if
      any, is replaced by `repl`; everything before and after it is kept. */
  function ReplaceOnce(s: string, target: string, repl: string): (r: string)
    ensures !Contains(s, target) ==> r == s
    ensures Contains(s, target) ==>
      exists i: nat :: OccursAt(s, target, i) && (forall j :: 0 <= j < i ==> !OccursAt(s, target, j))
        && r == s[..i] + repl + s[i + |target|..]
  {
    match Index(s, target)
    case None => s
    case Some(i) => s[..i] + repl + s[i + |target|..]
  }

  /** Deleting a non-empty `target` changes the string exactly when it occurs,
      and then shortens it by exactly `|target|`. */
  lemma {:induction false} DeleteOnceChangesIffContains(s: string, target: string)
    requires target != ""
    ensures ReplaceOnce(s, target, "") != s <==> Contains(s, target)
    ensures Contains(s, target) ==> |ReplaceOnce(s, target, "")| == |s| - |target|
  {
    match Index(s, target)
    case None =>
    case Some(i) =>
      assert |ReplaceOnce(s, target, "")| == |s| - |target|;
  }

  /** When `target` is a prefix of `s`, deleting its first occurrence is the same
      as cutting the prefix off. */
  lemma {:induction false} DeleteOnceOfPrefix(s: string, target: string)
    requires HasPrefix(s, target)
    ensures ReplaceOnce(s, target, "") == s[|target|..]
  {
    assert OccursAt(s, target, 0);
    assert Index(s, target) == Some(0);
  }
}

=== FILE: pathinfo.dfy ===
/**
 The split of a URL path into script name and path info that the gateway does
 with the Go regular expression `^(.*?\.php)(.*)$` and `FindStringSubmatch`.

 Three facts about that expression decide its behaviour:
   - `.` does not match a newline, and there is no `s` flag, so a path that
     contains `\n` never matches;
   - `^` and `$` anchor the whole path, so the two groups together are the
     whole path;
   - `.*?` is lazy and Go's matcher is leftmost-first, so among all ways of
     choosing group 1 it takes the shortest prefix that ends in `.php`.
 The model is an explicit left-to-right scan over prefix lengths, not a
 regular-expression engine.
 */
module PathInfo {
  import opened Wrappers
  import opened GoStrings

  const Ext: string := ".php"

  /** `g1`, `g2` are capture groups 1 and 2 of one successful match of the
      expression against `s`, without regard to which match Go picks. */
  ghost predicate IsParse(s: string, g1: string, g2: string) {
    s == g1 + g2 && HasSuffix(g1, Ext) && '\n' !in g1 && '\n' !in g2
  }

  /** The shortest prefix length `n >= from` for which `s[..n]` ends in `.php`. */
  function ScanFrom(s: string, from: nat): (r: Option<nat>)
    requires from <= |s|
    ensures r.Some? ==> from <= r.value <= |s| && HasSuffix(s[..r.value], Ext)
    ensures r.Some? ==> forall n :: from <= n < r.value ==> !HasSuffix(s[..n], Ext)
    ensures r.None? ==> forall n :: from <= n <= |s| ==> !HasSuffix(s[..n], Ext)
    decreases |s| - from
  {
    if HasSuffix(s[..from], Ext) then Some(from)
    else if from == |s| then None
    else ScanFrom(s, from + 1)
  }

  /** `fcgiPathInfo.FindStringSubmatch(s)`, with `None` for a result of length
      below two and `Some((p[1], p[2]))` otherwise. A match exists exactly when
      `s` contains `.php` and no newline; it then splits `s` in two, the first
      part ending in `.php` and no shorter prefix of `s` doing so. */
  function SplitPathInfo(s: string): (m: Option<(string, string)>)
    ensures m.Some? <==> '\n' !in s && Contains(s, Ext)
    ensures m.Some? ==> m.value.0 + m.value.1 == s
    ensures m.Some? ==> HasSuffix(m.value.0, Ext)
    ensures m.Some? ==> forall n :: 0 <= n < |m.value.0| ==> !HasSuffix(s[..n], Ext)
  {
    ContainsIffSomePrefixEnds(s);
    if '\n' in s then None
    else
      match ScanFrom(s, 0)
      case None => None
      case Some(n) =>
        assert s[..n] + s[n..] == s;
        Some((s[..n], s[n..]))
  }

  /** `.php` occurs in `s` exactly when some prefix of `s` ends in `.php`. */
  lemma {:induction false} ContainsIffSomePrefixEnds(s: string)
    ensures Contains(s, Ext) <==> exists n :: 0 <= n <= |s| && HasSuffix(s[..n], Ext)
  {
    if Contains(s, Ext) {
      var j: nat :| OccursAt(s, Ext, j);
      assert s[..j + |Ext|][j..] == s[j..j + |Ext|];
      assert HasSuffix(s[..j + |Ext|], Ext);
    }
    if n :| 0 <= n <= |s| && HasSuffix(s[..n], Ext) {
      assert s[n - |Ext|..n] == s[..n][n - |Ext|..];
      assert OccursAt(s, Ext, n - |Ext|);
    }
  }

  /** Leftmost-first semantics: the split returned is the parse with the
      shortest group 1, and any parse with the shortest group 1 is the one
      returned. */
  lemma {:induction false} SplitIsShortestParse(s: string, g1: string, g2: string)
    ensures SplitPathInfo(s) == Some((g1, g2)) <==>
      IsParse(s, g1, g2) && forall h1, h2 :: IsParse(s, h1, h2) ==> |g1| <= |h1|
  {
    var m := SplitPathInfo(s);
    if m == Some((g1, g2)) {
      assert g1 == s[..|g1|];
      forall h1, h2 | IsParse(s, h1, h2)
        ensures |g1| <= |h1|
      {
        assert h1 == s[..|h1|];
      }
    }
    if IsParse(s, g1, g2) && forall h1, h2 :: IsParse(s, h1, h2) ==> |g1| <= |h1| {
      assert g1 == s[..|g1|];
      ContainsIffSomePrefixEnds(s);
      assert m.Some?;
      var k1 := m.value.0;
      var k2 := m.value.1;
      assert k1 == s[..|k1|];
      assert IsParse(s, k1, k2);
      assert |g1| == |k1|;
      assert g2 == s[|g1|..];
      assert k2 == s[|k1|..];
    }
  }

  /** Where the split falls on a path `a + ".php" + b` whose head `a` has no
      `h`: every `.php` has an `h` two characters before its end, so the
      `.php` after `a` is the first one, and group 1 ends with it, however
      `b` continues (another `.php` included). */
  lemma {:induction false} SplitAfterFirstExtension(a: string, b: string)
    requires 'h' !in a && '\n' !in a && '\n' !in b
    ensures SplitPathInfo(a + Ext + b) == Some((a + Ext, b))
  {
    var s := a + Ext + b;
    var n := |a| + |Ext|;
    assert s[..n] == a + Ext;
    assert s[n..] == b;
    forall i | 0 <= i < n - 2
      ensures s[i] != 'h'
    {
      if i < |a| {
        assert s[i] == a[i];
      }
    }
    forall h1, h2 | IsParse(s, h1, h2)
      ensures n <= |h1|
    {
      assert h1 == s[..|h1|];
      assert h1[|h1| - 2] == h1[|h1| - |Ext|..][2] == 'h';
    }
    assert '\n' !in s by {
      assert forall i :: 0 <= i < |s| ==> s[i] in a || s[i] in Ext || s[i] in b;
    }
    SplitIsShortestParse(s, a + Ext, b);
  }

  /** A path element that is `.php` and nothing else ends the script name:
      `/app/.php/extra` splits into `/app/.php` and `/extra`. */
  lemma {:induction false} BareExtensionIsScript()
    ensures SplitPathInfo("/app/" + Ext + "/extra") == Some(("/app/" + Ext, "/extra"))
  {
    SplitAfterFirstExtension("/app/", "/extra");
  }

  /** Of two `.php` elements the first ends the script name: the split is
      the shortest match, not the longest. */
  lemma {:induction false} FirstExtensionWins()
    ensures SplitPathInfo("/a" + Ext + "/b" + Ext) == Some(("/a" + Ext, "/b" + Ext))
  {
    SplitAfterFirstExtension("/a", "/b" + Ext);
    assert "/a" + Ext + ("/b" + Ext) == "/a" + Ext + "/b" + Ext;
  }
}

=== FILE: wrappers.dfy ===
/** The optional-value datatype used wherever a Go helper answers "not found". */
module Wrappers {

  datatype Option<+T> = None | Some(value: T)
}
